=== FILE: README.md ===
# F-seq density scanner and SAM/BAM cut reader, in Dafny

F-seq turns aligned sequencing reads into a kernel density estimate along each chromosome and
counts the peaks of that density. This project models two parts of it and proves properties of
the model.

**The chromosome scan (`KDEChromosome`).**
- A chromosome holds its cuts: read ends with a position, a strand and a weight, sorted by
  position.
- `run` walks every base from the first cut up to, but not including, the last. At each base it:
  - evaluates the windowed density there;
  - counts peaks with a two-state detector;
  - advances a cursor into the cuts;
  - hands the values to a `DensityWriter` in batches of 10240, with one closing call for the rest.
- There are four density functions: plain, background-corrected, input-corrected and both. The
  corrected `run` overload picks one by which correction-file lists are in use. It stops early
  when a non-empty list has no file named after the chromosome.
- `Settings` holds the kernel table and the bandwidth rules. `Sequence.compareTo` orders cuts by
  position alone.

**The reader (`SamReader.read`).**
- Every alignment record becomes a cut:
  - a reverse-strand read gives its alignment start;
  - any other read gives its alignment end;
  - the weight is the `XW` attribute, clipped into `[1/clip, clip]` when a clip is given.
- The cuts are grouped by reference name. Each group is sorted into one chromosome, and every
  chromosome gets the read length of the very first record.
- A record that fails to parse makes the whole read fail with `badFile`.

**Layout.**
- `common.dfy`: `Option`, `Result`, `Abs`.
- `cuts.dfy`: the cut record, `compareTo`, sortedness and total weight.
- `kernel.dfy`: `Settings`, its two constructors, `computeBandwidth`, `computeOptimalWindow`,
  `precompute`.
- `estimator.dfy`: the four density functions.
  - They are one method, `Density`, parameterised by a `Variant`, with the per-cut arithmetic in
    `Term`.
  - `Backward`, `Forward` and `Estimate` mirror the two loops, including which exception is raised
    first.
  - `WindowDensity` is an independent reference that sums over every cut in the window.
- `scanner.dfy`:
  - the cursor, the peak detector and the batching;
  - the `DensityWriter` as a call log;
  - the `Chromosome` class with its constructor, `Scan`, `Run` and `RunCorrected`.
- `samreader.dfy`: the record-to-cut mapping, the grouping state, an in-place sort and `Read`.

Two behaviours of the code are kept as written, though a reader might expect otherwise:
- The closing `writeDensity` call is made even when no values are left in the buffer, so a
  chromosome whose length is a multiple of 10240 (or zero) ends with an empty write.
- In the chip experiment, `bgdensity` shifts reverse-strand cuts by `+offset`, where the other
  three functions use `-offset`. The model keeps this. `Estimator.BackgroundChipOverrun` shows
  that it can read past the end of the kernel table where the other functions do not.

## Model

| member | source | states |
|---|---|---|
| Common.Abs | src/edu/duke/igsp/gkde/KDEChromosome.java:117 | the absolute value is the argument or its negation, and never negative |
| Cuts.CompareTo | src/edu/duke/igsp/gkde/KDEChromosome.java:754-762 | the result is -1, 0 or 1; it is negative exactly when the first position is smaller and positive exactly when it is larger |
| Cuts.CompareToPreorder | src/edu/duke/igsp/gkde/KDEChromosome.java:754-762 | the ordering is antisymmetric and transitive |
| Cuts.CompareToTiesDistinctCuts | src/edu/duke/igsp/gkde/KDEChromosome.java:754-762 | two different cuts can compare as equal, because strand and weight are ignored |
| Kernel.ComputeBandwidth | src/edu/duke/igsp/gkde/KDEChromosome.java:822-824 | the bandwidth is the feature length over six, truncated toward zero, for either sign |
| Kernel.ComputeBandwidthOdd | src/edu/duke/igsp/gkde/KDEChromosome.java:822-824 | negating the feature length negates the bandwidth |
| Kernel.ComputeOptimalWindow | src/edu/duke/igsp/gkde/KDEChromosome.java:826-837 | the window is at least 1400; the kernel underflows one step past it and at no distance from 1401 up to it |
| Kernel.Precompute | src/edu/duke/igsp/gkde/KDEChromosome.java:806-813 | a fresh table of `window + 1` entries, entry `d` being the kernel value at distance `d` |
| Kernel.NewSettings | src/edu/duke/igsp/gkde/KDEChromosome.java:778-788 | stores every parameter; the table has `window + 1` entries holding the kernel values |
| Kernel.NewSettingsForFeature | src/edu/duke/igsp/gkde/KDEChromosome.java:790-800 | the bandwidth comes from the feature length, the window from the underflow search, and the table has `window + 1` entries |
| Estimator.Correction | src/edu/duke/igsp/gkde/KDEChromosome.java:477-485 | a correction factor exists exactly when every track in use covers the cut's index with a positive value; the factor is then positive |
| Estimator.Term | src/edu/duke/igsp/gkde/KDEChromosome.java:415-444 | the forward loop raises `IllegalState` beyond the table; a counted, covered cut whose shifted distance is past the table raises `IndexOutOfBounds`; a non-zero term or an exception needs the cut to count and be covered |
| Estimator.TermCheckPasses | src/edu/duke/igsp/gkde/KDEChromosome.java:432-434 | the forward loop's distance check only matters beyond the end of the table |
| Estimator.TermValue | src/edu/duke/igsp/gkde/KDEChromosome.java:417-427 | a counted, covered cut inside the table adds table entry times correction times weight |
| Estimator.SumBackward | src/edu/duke/igsp/gkde/KDEChromosome.java:415-428 | the backward loop computes `Backward` from the cursor, with its exception if one is raised |
| Estimator.SumForward | src/edu/duke/igsp/gkde/KDEChromosome.java:430-445 | the forward loop adds `Forward` from the cursor to the running sum, or stops with its exception |
| Estimator.Density | src/edu/duke/igsp/gkde/KDEChromosome.java:407-448 | the density method returns `Estimate`: both loops, then the sum over the bandwidth |
| Estimator.BackwardMatchesWindow | src/edu/duke/igsp/gkde/KDEChromosome.java:415-428 | below the cursor, the backward loop fails exactly when an in-window cut raises, and otherwise sums exactly the in-window cuts |
| Estimator.ForwardMatchesWindow | src/edu/duke/igsp/gkde/KDEChromosome.java:430-445 | from the cursor on, the forward loop fails exactly when an in-window cut raises, and otherwise sums exactly the in-window cuts |
| Estimator.EstimateMatchesWindow | src/edu/duke/igsp/gkde/KDEChromosome.java:407-448 | with the cursor splitting sorted cuts, the estimate fails exactly when an in-window cut raises, and otherwise equals the reference window density |
| Estimator.BackwardVisitsWindow | src/edu/duke/igsp/gkde/KDEChromosome.java:415-416 | the backward loop's window break admits exactly the in-window cuts below the cursor (the sum itself is stated by `BackwardMatchesWindow`) |
| Estimator.ForwardVisitsWindow | src/edu/duke/igsp/gkde/KDEChromosome.java:430-431 | the forward loop's window break admits exactly the in-window cuts from the cursor on (the sum itself is stated by `ForwardMatchesWindow`) |
| Estimator.VisitsCoverWindow | src/edu/duke/igsp/gkde/KDEChromosome.java:409-445 | together the two window breaks admit every in-window cut once and no other cut |
| Estimator.NonChipWindowFits | src/edu/duke/igsp/gkde/KDEChromosome.java:430-445 | outside the chip experiment, with a table of `window + 1` entries, no in-window cut raises |
| Estimator.ChipWindowFits | src/edu/duke/igsp/gkde/KDEChromosome.java:418-426 | in the chip experiment with `0 <= offset <= window`, no in-window cut raises for the plain, input and full variants |
| Estimator.BackgroundChipOverrun | src/edu/duke/igsp/gkde/KDEChromosome.java:467-468 | a concrete chip setting where `bgdensity` reads past the table while `density` and `ipdensity` do not |
| Estimator.UniformBackgroundIsPlain | src/edu/duke/igsp/gkde/KDEChromosome.java:450-518 | outside chip, a background track of ones covering every cut gives exactly the plain density |
| Estimator.ChipForwardShift | src/edu/duke/igsp/gkde/KDEChromosome.java:419-420 | in chip, a forward cut at or before the position weighs as a cut `offset` further on does outside chip |
| Scanner.Advance | src/edu/duke/igsp/gkde/KDEChromosome.java:139-140 | the cursor moves forward, within the cuts, past exactly the cuts below the position and stops at the first cut at or above it |
| Scanner.MoveCursor | src/edu/duke/igsp/gkde/KDEChromosome.java:139-140 | the cursor loop computes `Advance` |
| Scanner.CursorMonotone | src/edu/duke/igsp/gkde/KDEChromosome.java:139-140 | the cursor never decreases from one base to a later one |
| Scanner.CursorSplits | src/edu/duke/igsp/gkde/KDEChromosome.java:124-140 | over sorted cuts, at base `i` every cut before the cursor lies below position `first + i - 1`, and for `i > 0` every cut from the cursor on lies at or above it |
| Scanner.PeakStep | src/edu/duke/igsp/gkde/KDEChromosome.java:133-138 | a value equal to the threshold changes nothing; the count rises by one exactly on a below-to-above step |
| Scanner.DetectCountsRuns | src/edu/duke/igsp/gkde/KDEChromosome.java:133-138 | the peak count is the number of runs above the threshold once equal values are set aside, and the state says whether the last such value was above |
| Scanner.DensityWriter.SetThreshold | src/edu/duke/igsp/gkde/KDEChromosome.java:99 | the log gains one threshold call |
| Scanner.DensityWriter.WriteDensity | src/edu/duke/igsp/gkde/KDEChromosome.java:145 | the log gains one call with the length and the values handed over |
| Scanner.BatchesSnoc | src/edu/duke/igsp/gkde/KDEChromosome.java:144-146 | one more value adds a full-buffer write exactly when it completes a batch |
| Scanner.BatchesCover | src/edu/duke/igsp/gkde/KDEChromosome.java:144-146 | there is one full write per complete batch, each of 10240 values, together handing over all values but the last `n % 10240` |
| Scanner.ScanWritesAll | src/edu/duke/igsp/gkde/KDEChromosome.java:144-150 | the full writes and the closing write hand over every value once, in order; every length matches its values; the closing length is below 10240 |
| Scanner.SinglePositionWritesEmpty | src/edu/duke/igsp/gkde/KDEChromosome.java:117-150 | a chromosome whose first and last cut coincide evaluates no base and makes one empty write |
| Scanner.ProfileStep | src/edu/duke/igsp/gkde/KDEChromosome.java:128-131 | one more base either adds its value or stops the scan with its exception |
| Scanner.ProfileFailedStays | src/edu/duke/igsp/gkde/KDEChromosome.java:128-131 | after an exception, later bases change nothing |
| Scanner.ProfileShape | src/edu/duke/igsp/gkde/KDEChromosome.java:128-131 | a completed scan holds one value per base, value `i` being the density at base `i`; a failed scan keeps the values before the first base that raises, plus that base's exception |
| Scanner.BaseIsWindowDensity | src/edu/duke/igsp/gkde/KDEChromosome.java:128-140 | at every base over sorted cuts, the density raises exactly when an in-window cut does, and otherwise equals the reference window density |
| Scanner.ProfileCompletes | src/edu/duke/igsp/gkde/KDEChromosome.java:128-131 | the scan completes exactly when no in-window cut raises at any base |
| Scanner.ProfileIsWindowDensity | src/edu/duke/igsp/gkde/KDEChromosome.java:128-131 | a completed scan holds at base `i` the window density of position `first + i` |
| Scanner.ProfileSucceeds | src/edu/duke/igsp/gkde/KDEChromosome.java:128-131 | outside chip, or in chip for non-background variants with `0 <= offset <= window`, the scan completes and holds the window densities |
| Scanner.ZeroWindowLagFails | src/edu/duke/igsp/gkde/KDEChromosome.java:128-140 | with a window of 0, base 1 throws `IllegalState` because the cursor still points at the previous base's cut, although no cut in that base's window throws |
| Scanner.ScanBase | src/edu/duke/igsp/gkde/KDEChromosome.java:129-146 | one base stores its density, steps the detector, moves the cursor and flushes a full buffer; an exception changes nothing |
| Scanner.LastMatchSpec | src/edu/duke/igsp/gkde/KDEChromosome.java:257-263 | there is no match exactly when no file has the name; a match is the last file with the name |
| Scanner.FindTrack | src/edu/duke/igsp/gkde/KDEChromosome.java:257-263 | the file loop keeps the last file with the wanted name |
| Scanner.Select | src/edu/duke/igsp/gkde/KDEChromosome.java:338-350 | neither, background only, input only and both tracks select the plain, background, input and full density, carrying the chosen tracks |
| Scanner.Chromosome.constructor | src/edu/duke/igsp/gkde/KDEChromosome.java:54-65 | keeps name, cuts and read length; first and last cut positions and total weight are those of the cuts |
| Scanner.Chromosome.Scan | src/edu/duke/igsp/gkde/KDEChromosome.java:105-150 | the result is the peak count of the scan of the `abs(last - first)` bases, or its exception; the writer receives the scan's batches and closing write |
| Scanner.Chromosome.Run | src/edu/duke/igsp/gkde/KDEChromosome.java:95-158 | sets the threshold, logs it, then scans with the plain density |
| Scanner.Chromosome.RunCorrected | src/edu/duke/igsp/gkde/KDEChromosome.java:241-378 | sets and logs the threshold; a non-empty list with no matching file ends the run with nothing written; otherwise it scans with the selected variant |
| SamReader.ClipWeight | src/edu/duke/igsp/gkde/format/SamReader.java:99-111 | a missing attribute gives 1.0; clip 0 keeps the value; otherwise a weight above `clip` becomes `clip`, and one not above `clip` but below `1/clip` becomes `1/clip`; clip at least 1 puts every weight in `[1/clip, clip]` and keeps a value already there |
| SamReader.ClipWeightIdempotent | src/edu/duke/igsp/gkde/format/SamReader.java:102-108 | clipping a clipped weight again changes nothing |
| SamReader.ClipWeightMonotone | src/edu/duke/igsp/gkde/format/SamReader.java:102-108 | with clip at least 1, clipping preserves the order of two weights |
| SamReader.ToCut | src/edu/duke/igsp/gkde/format/SamReader.java:112-116 | a reverse-strand read gives a reverse cut at its start; any other read gives a forward cut at its end; the weight is the clipped one |
| SamReader.NamesDistinct | src/edu/duke/igsp/gkde/format/SamReader.java:80-87 | each reference name gets one list |
| SamReader.NamesCover | src/edu/duke/igsp/gkde/format/SamReader.java:80-87 | the lists are exactly those of the reference names that occur |
| SamReader.GroupNonEmpty | src/edu/duke/igsp/gkde/format/SamReader.java:80-117 | when every record parses, each name's list holds at least one cut |
| SamReader.CutInGroup | src/edu/duke/igsp/gkde/format/SamReader.java:80-117 | every parsed record's cut is in the list of its own reference name |
| SamReader.GroupedAdd | src/edu/duke/igsp/gkde/format/SamReader.java:80-117 | adding a record's cut to its name's list, created if new, keeps every list equal to its name's cuts in record order |
| SamReader.ReadingAdd | src/edu/duke/igsp/gkde/format/SamReader.java:80-117 | one parsed record keeps the grouping, and sets the read length from the first record only |
| SamReader.ReadFile | src/edu/duke/igsp/gkde/format/SamReader.java:79-121 | the records of one file fail exactly when one does not parse, and otherwise extend the reader state by all of them |
| SamReader.GroupsNonEmpty | src/edu/duke/igsp/gkde/format/SamReader.java:128-138 | after an error-free read every name met has a non-empty list, so every chromosome can be built |
| SamReader.BuiltAreChromosomesOf | src/edu/duke/igsp/gkde/format/SamReader.java:128-139 | building every list gives one chromosome per name, holding that name's cuts sorted, with the first record's read length |
| SamReader.NewChromosome | src/edu/duke/igsp/gkde/format/SamReader.java:133-138 | copies one list, sorts it and builds a valid chromosome with the same cuts in sorted order |
| SamReader.NewChromosomes | src/edu/duke/igsp/gkde/format/SamReader.java:131-139 | one chromosome per name, in order, each built from that name's list |
| SamReader.SortCuts | src/edu/duke/igsp/gkde/format/SamReader.java:137 | the array ends sorted by position and holds the same cuts |
| SamReader.InsertAt | src/edu/duke/igsp/gkde/format/SamReader.java:137 | one insertion step extends the sorted prefix by one, keeps the same cuts and leaves the cuts after index `i` unchanged |
| SamReader.Read | src/edu/duke/igsp/gkde/format/SamReader.java:63-141 | fails exactly when some record does not parse, naming the first file with one; otherwise it returns one valid chromosome per name with that name's cuts sorted and the first record's read length |

## Left out

- The Gaussian kernel, the `sequenceNormalize` scale and `computeOptimalWindow`'s `exp` test are
  floating point. They are parameters: a kernel shape function and an underflow predicate.
- Narrowing densities to `float` and comparing them with a `float` threshold are not modelled.
  Densities are reals, and so is `1.0f/weight_clip`.
- The `(int)` and `(long)` casts of positions and distances are not modelled. Coordinates are
  unbounded integers, and `Common.Abs` ignores the overflow at the smallest `int`.
- Kernel.ComputeBandwidth: is exact truncation of `featureLength / 6`, not the two
  double-precision divisions the source performs.
- Scanner.BaseIsWindowDensity, Scanner.ProfileCompletes, Scanner.ProfileIsWindowDensity and
  Scanner.ProfileSucceeds: require a window of at least 1. The cursor lags one base behind, so
  with a window of 0 the forward loop meets the previous base's cut and throws, as
  `Scanner.ZeroWindowLagFails` shows. The explicit-window `Settings` constructor accepts 0.
- Kernel.Precompute, Kernel.NewSettings: take the window as a non-negative radius. In the source
  the window is a `long`: -1 gives an empty table, and anything below -1 throws
  `NegativeArraySizeException`.
- Estimator.Density, Scanner.Chromosome.Scan, Scanner.Chromosome.Run and
  Scanner.Chromosome.RunCorrected: require a non-zero bandwidth. The source divides by it in
  floating point, which gives an infinity or NaN rather than an error.
- Loading the background and input tracks (`BffReader`, `IffReader`) is not modelled. Tracks are
  given values, so the `null` track left by a swallowed load error is not modelled either.
- Verbose progress output and timing are not modelled. With verbose output on and fewer than 20
  bases, the progress test divides by zero; that path is outside this model.
- The peak count is returned rather than printed. The writer is an append-only call log, not a
  file.
- `runBG` is not modelled separately. It repeats the background-only path of the corrected `run`
  overload.
- The commented-out `computeThreshold` and the unused `bgOffset` and `isDNase` are not modelled.
- The htsjdk reader factory, record iteration and `reader.close()` are not modelled. Each input
  file is a sequence of `SamReader.Record` values, and a missing or unreadable `XW` attribute is
  `None`.
- The reference-equality cache of the current chromosome is not modelled. It only saves map
  look-ups.
- SamReader.Read: returns the chromosomes in the order their names first occur. The source's
  `HashMap` key order is unspecified, so the model fixes one such order.
- SamReader.Read: does not model the removal of each list from the map while building. Nothing
  reads the map afterwards.
- SamReader.SortCuts: states sortedness and permutation only. It does not state the stability of
  `Arrays.sort` or which of several equal-position cuts comes first.
- The `KDEChromosome` constructor on an empty cut array throws in the source. The model requires
  non-empty cuts, and `SamReader.Read` never builds an empty chromosome.
- Estimator.SumBackward, Estimator.SumForward and Scanner.ScanBase: are helper splits of loops that
  the source writes inline in one method. They keep the source's order of steps.

=== FILE: common.dfy ===
/** Small shared definitions: optional values, results carrying an error, absolute value. */
module Common {

  datatype Option<+T> = None | Some(value: T)

  datatype Result<+T, +E> = Ok(value: T) | Err(error: E)

  /** Java's `Math.abs` on an `int`, ignoring the overflow at `Integer.MIN_VALUE`. */
  function Abs(x: int): (r: nat)
    ensures r == x || r == -x
  {
    if x < 0 then -x else x
  }
}

=== FILE: cuts.dfy ===
/**
 * Cut events: the `KDEChromosome.Sequence` record (a genomic position, a strand flag and a weight),
 * the position-only ordering of `compareTo`, and the aggregates a chromosome keeps about its cuts.
 */
module Cuts {

  /** One cut. `forward` is the source's `strand` flag: true for a forward-strand read. */
  datatype Cut = Cut(pos: int, forward: bool, weight: real)

  /** `Sequence.compareTo`: -1, 0 or 1 according to the positions alone. */
  function CompareTo(a: Cut, b: Cut): (r: int)
    ensures -1 <= r <= 1
    ensures r < 0 <==> a.pos < b.pos
    ensures r > 0 <==> b.pos < a.pos
  {
    if a.pos < b.pos then -1 else if a.pos > b.pos then 1 else 0
  }

  /** The ordering is antisymmetric and transitive, so it is a total preorder on cuts. */
  lemma CompareToPreorder(a: Cut, b: Cut, c: Cut)
    ensures CompareTo(a, b) == -CompareTo(b, a)
    ensures CompareTo(a, b) <= 0 && CompareTo(b, c) <= 0 ==> CompareTo(a, c) <= 0
  {
  }

  /** Two different cuts (other strand, other weight) can compare as equal: ties are not equalities. */
  lemma CompareToTiesDistinctCuts()
    ensures exists a: Cut, b: Cut :: a != b && CompareTo(a, b) == 0
  {
    var a, b := Cut(7, true, 1.0), Cut(7, false, 1.0);
    assert a != b && CompareTo(a, b) == 0;
  }

  /** Non-decreasing by position, the order `Arrays.sort` leaves behind under `compareTo`. */
  ghost predicate Sorted(s: seq<Cut>)
  {
    forall i, j :: 0 <= i < j < |s| ==> CompareTo(s[i], s[j]) <= 0
  }

  /** The sum of the weights of `s`. */
  ghost function TotalWeight(s: seq<Cut>): real
  {
    if s == [] then 0.0 else TotalWeight(s[..|s| - 1]) + s[|s| - 1].weight
  }
}

=== FILE: estimator.dfy ===
/**
 * The windowed density estimator of KDEChromosome.java: `density`, `bgdensity`, `ipdensity` and
 * `fulldensity`. The four source functions share one loop structure (a backward scan from
 * `cutIdx - 1` and a forward scan from `cutIdx`, each breaking at the window edge); here they are one
 * method parameterised by a `Variant`, and the per-cut arithmetic of each variant is `Term`.
 */
module Estimator {
  import opened Common
  import opened Cuts
  import opened Kernel

  /** A loaded correction track (`WigChromosome`): `values[k]` belongs to position `start + k`. */
  datatype Track = Track(start: int, values: seq<real>)

  /** Which correction tracks are in use: `density`, `bgdensity`, `ipdensity`, `fulldensity`. */
  datatype Variant = Plain | Background(bg: Track) | Input(ip: Track) | Full(bg: Track, ip: Track)

  /**
   * The two exceptions a density evaluation can throw: `IllegalStateException` from the forward
   * loop's distance check, and `ArrayIndexOutOfBoundsException` from reading `precompute[d]`.
   */
  datatype DensityError = IllegalState | IndexOutOfBounds

  /** The track index of a cut: `pos - start`, and `_sequenceLength` less on the reverse strand. */
  function TrackIndex(t: Track, c: Cut, seqLen: int): int
  {
    if c.forward then c.pos - t.start else c.pos - t.start - seqLen
  }

  /** Index `b` lies inside the track and holds a positive value. */
  predicate Covered(t: Track, b: int)
  {
    0 <= b < |t.values| && t.values[b] > 0.0
  }

  /**
   * The direction rule: outside the "chip" experiment every cut counts; in it a forward-strand cut
   * counts only at or before `chromPos` and a reverse-strand cut only at or after it.
   */
  predicate Counts(s: Settings, c: Cut, chromPos: int)
  {
    !IsChip(s) || (c.forward && c.pos <= chromPos) || (!c.forward && c.pos >= chromPos)
  }

  /**
   * The kernel distance of a counted cut. In the chip experiment the cut is shifted by `offset`
   * toward its strand's direction; `bgdensity` shifts by `+offset` on both strands.
   */
  function KernelDistance(v: Variant, s: Settings, c: Cut, chromPos: int): nat
  {
    if !IsChip(s) then Abs(c.pos - chromPos)
    else if v.Background? || c.forward then Abs(c.pos + s.offset - chromPos)
    else Abs(c.pos - s.offset - chromPos)
  }

  /**
   * The factor a variant multiplies a counted cut's kernel value with, or None when a track does not
   * cover the cut (it then adds nothing). Input values are in thousandths, hence the `/ 1000`.
   */
  function Correction(v: Variant, c: Cut, seqLen: int): (r: Option<real>)
    ensures r.Some? ==> r.value > 0.0
    ensures v.Plain? ==> r == Some(1.0)
    ensures v.Background? ==> (r.Some? <==> Covered(v.bg, TrackIndex(v.bg, c, seqLen)))
    ensures v.Input? ==> (r.Some? <==> Covered(v.ip, TrackIndex(v.ip, c, seqLen)))
    ensures v.Full? ==>
      (r.Some? <==> Covered(v.bg, TrackIndex(v.bg, c, seqLen)) && Covered(v.ip, TrackIndex(v.ip, c, seqLen)))
  {
    match v
    case Plain => Some(1.0)
    case Background(bg) =>
      var b := TrackIndex(bg, c, seqLen);
      if Covered(bg, b) then Some(bg.values[b]) else None
    case Input(ip) =>
      var b := TrackIndex(ip, c, seqLen);
      if Covered(ip, b) then Some(1.0 / (ip.values[b] / 1000.0)) else None
    case Full(bg, ip) =>
      var b := TrackIndex(bg, c, seqLen);
      var i := TrackIndex(ip, c, seqLen);
      if Covered(bg, b) && Covered(ip, i) then Some(bg.values[b] / (ip.values[i] / 1000.0)) else None
  }

  /**
   * What one visited cut adds to the sum, or the exception it raises. `checked` is true in the
   * forward loop, which first rejects an unshifted distance beyond the end of the table.
   */
  function Term(v: Variant, s: Settings, c: Cut, chromPos: int, seqLen: int, checked: bool): (r: Result<real, DensityError>)
    ensures checked && Abs(c.pos - chromPos) >= |s.precompute| ==> r == Err(IllegalState)
    ensures r.Ok? && r.value != 0.0 ==> Counts(s, c, chromPos) && Correction(v, c, seqLen).Some?
    ensures r.Err? ==> (Counts(s, c, chromPos) && Correction(v, c, seqLen).Some?)
                       || (checked && r.error == IllegalState)
    ensures (&& !(checked && Abs(c.pos - chromPos) >= |s.precompute|)
             && Counts(s, c, chromPos) && Correction(v, c, seqLen).Some?
             && KernelDistance(v, s, c, chromPos) >= |s.precompute|)
            ==> r == Err(IndexOutOfBounds)
  {
    if checked && Abs(c.pos - chromPos) > |s.precompute| - 1 then Err(IllegalState)
    else if !Counts(s, c, chromPos) then Ok(0.0)
    else match Correction(v, c, seqLen)
      case None => Ok(0.0)
      case Some(f) =>
        var d := KernelDistance(v, s, c, chromPos);
        if d < |s.precompute| then Ok(s.precompute[d] * f * c.weight) else Err(IndexOutOfBounds)
  }

  /** The forward loop's distance check only matters beyond the end of the table. */
  lemma TermCheckPasses(v: Variant, s: Settings, c: Cut, chromPos: int, seqLen: int)
    requires Abs(c.pos - chromPos) < |s.precompute|
    ensures Term(v, s, c, chromPos, seqLen, true) == Term(v, s, c, chromPos, seqLen, false)
  {
  }

  /** The value of a counted, covered cut whose kernel distance is inside the table. */
  lemma TermValue(v: Variant, s: Settings, c: Cut, chromPos: int, seqLen: int, checked: bool)
    requires !checked || Abs(c.pos - chromPos) < |s.precompute|
    requires Counts(s, c, chromPos) && Correction(v, c, seqLen).Some?
    requires KernelDistance(v, s, c, chromPos) < |s.precompute|
    ensures Term(v, s, c, chromPos, seqLen, checked)
         == Ok(s.precompute[KernelDistance(v, s, c, chromPos)] * Correction(v, c, seqLen).value * c.weight)
  {
    var r := Term(v, s, c, chromPos, seqLen, checked);
    assert r.Ok?;
    assert r.value == s.precompute[KernelDistance(v, s, c, chromPos)] * Correction(v, c, seqLen).value * c.weight;
  }

  /** Adds `x` to a successful partial sum and passes an exception through. */
  function Plus(x: real, r: Result<real, DensityError>): Result<real, DensityError>
  {
    match r
    case Ok(y) => Ok(x + y)
    case Err(e) => Err(e)
  }

  /** The backward loop over `cuts[k-1], cuts[k-2], …`, stopping below `chromPos - window`. */
  function Backward(v: Variant, s: Settings, cuts: seq<Cut>, seqLen: int, chromPos: int, k: nat): Result<real, DensityError>
    requires k <= |cuts|
  {
    if k == 0 || cuts[k - 1].pos < chromPos - s.window then Ok(0.0)
    else match Term(v, s, cuts[k - 1], chromPos, seqLen, false)
      case Err(e) => Err(e)
      case Ok(t) => Plus(t, Backward(v, s, cuts, seqLen, chromPos, k - 1))
  }

  /** The forward loop over `cuts[j], cuts[j+1], …`, stopping above `chromPos + window`. */
  function Forward(v: Variant, s: Settings, cuts: seq<Cut>, seqLen: int, chromPos: int, j: nat): Result<real, DensityError>
    requires j <= |cuts|
    decreases |cuts| - j
  {
    if j == |cuts| || cuts[j].pos > chromPos + s.window then Ok(0.0)
    else match Term(v, s, cuts[j], chromPos, seqLen, true)
      case Err(e) => Err(e)
      case Ok(t) => Plus(t, Forward(v, s, cuts, seqLen, chromPos, j + 1))
  }

  /** The density at `chromPos` with the cursor at `cutIdx`: both loops, then `sum / bandwidth`. */
  function Estimate(v: Variant, s: Settings, cuts: seq<Cut>, seqLen: int, chromPos: int, cutIdx: nat): Result<real, DensityError>
    requires cutIdx <= |cuts| && s.bandwidth != 0
  {
    match Backward(v, s, cuts, seqLen, chromPos, cutIdx)
    case Err(e) => Err(e)
    case Ok(b) =>
      match Forward(v, s, cuts, seqLen, chromPos, cutIdx)
      case Err(e) => Err(e)
      case Ok(f) => Ok((b + f) / s.bandwidth as real)
  }

  lemma PlusAssoc(x: real, y: real, r: Result<real, DensityError>)
    ensures Plus(x, Plus(y, r)) == Plus(x + y, r)
  {
  }

  /** One step of the backward loop over a cut inside the lower window edge. */
  lemma BackwardStep(v: Variant, s: Settings, cuts: seq<Cut>, seqLen: int, chromPos: int, k: nat)
    requires 0 < k <= |cuts| && cuts[k - 1].pos >= chromPos - s.window
    ensures var t := Term(v, s, cuts[k - 1], chromPos, seqLen, false);
            Backward(v, s, cuts, seqLen, chromPos, k)
              == if t.Err? then Err(t.error) else Plus(t.value, Backward(v, s, cuts, seqLen, chromPos, k - 1))
  {
  }

  /** One step of the forward loop over a cut inside the upper window edge. */
  lemma ForwardStep(v: Variant, s: Settings, cuts: seq<Cut>, seqLen: int, chromPos: int, j: nat)
    requires j < |cuts| && cuts[j].pos <= chromPos + s.window
    ensures var t := Term(v, s, cuts[j], chromPos, seqLen, true);
            Forward(v, s, cuts, seqLen, chromPos, j)
              == if t.Err? then Err(t.error) else Plus(t.value, Forward(v, s, cuts, seqLen, chromPos, j + 1))
  {
  }

  /** The first loop of `density`/`bgdensity`/`ipdensity`/`fulldensity`: the cuts before the cursor, walking down. */
  method SumBackward(v: Variant, s: Settings, cuts: seq<Cut>, seqLen: int, chromPos: int, cutIdx: nat)
    returns (r: Result<real, DensityError>)
    requires cutIdx <= |cuts|
    ensures r == Backward(v, s, cuts, seqLen, chromPos, cutIdx)
  {
    var minPos := chromPos - s.window;
    var sum := 0.0;
    var i: nat := cutIdx;  // one more than the index the loop looks at next
    while i > 0
      invariant i <= cutIdx
      invariant Backward(v, s, cuts, seqLen, chromPos, cutIdx) == Plus(sum, Backward(v, s, cuts, seqLen, chromPos, i))
    {
      if cuts[i - 1].pos < minPos {
        assert Backward(v, s, cuts, seqLen, chromPos, i) == Ok(0.0);
        break;
      }
      var t := Term(v, s, cuts[i - 1], chromPos, seqLen, false);
      BackwardStep(v, s, cuts, seqLen, chromPos, i);
      if t.Err? {
        return Err(t.error);
      }
      PlusAssoc(sum, t.value, Backward(v, s, cuts, seqLen, chromPos, i - 1));
      sum := sum + t.value;
      i := i - 1;
    }
    r := Ok(sum);
  }

  /** The second loop: the cuts from the cursor on, walking up, added to the running `sum`. */
  method SumForward(v: Variant, s: Settings, cuts: seq<Cut>, seqLen: int, chromPos: int, cutIdx: nat, sum: real)
    returns (r: Result<real, DensityError>)
    requires cutIdx <= |cuts|
    ensures r == Plus(sum, Forward(v, s, cuts, seqLen, chromPos, cutIdx))
  {
    var maxPos := chromPos + s.window;
    var total := sum;
    var j := cutIdx;
    while j < |cuts|
      invariant cutIdx <= j <= |cuts|
      invariant Plus(sum, Forward(v, s, cuts, seqLen, chromPos, cutIdx)) == Plus(total, Forward(v, s, cuts, seqLen, chromPos, j))
    {
      if cuts[j].pos > maxPos {
        assert Forward(v, s, cuts, seqLen, chromPos, j) == Ok(0.0);
        break;
      }
      var t := Term(v, s, cuts[j], chromPos, seqLen, true);
      ForwardStep(v, s, cuts, seqLen, chromPos, j);
      if t.Err? {
        return Err(t.error);
      }
      PlusAssoc(total, t.value, Forward(v, s, cuts, seqLen, chromPos, j + 1));
      total := total + t.value;
      j := j + 1;
    }
    r := Ok(total);
  }

  /** `density`/`bgdensity`/`ipdensity`/`fulldensity`: both loops, then the division by the bandwidth. */
  method Density(v: Variant, s: Settings, cuts: seq<Cut>, seqLen: int, chromPos: int, cutIdx: nat)
    returns (r: Result<real, DensityError>)
    requires cutIdx <= |cuts| && s.bandwidth != 0
    ensures r == Estimate(v, s, cuts, seqLen, chromPos, cutIdx)
  {
    var back := SumBackward(v, s, cuts, seqLen, chromPos, cutIdx);
    if back.Err? {
      return Err(back.error);
    }
    var sum := SumForward(v, s, cuts, seqLen, chromPos, cutIdx, back.value);
    if sum.Err? {
      return Err(sum.error);
    }
    r := Ok(sum.value / s.bandwidth as real);
  }

  // ---------------------------------------------------------------------------------------------
  // What the two loops compute, against a reference that looks at every cut.

  /** Whether a cut lies inside the kernel window `[chromPos - window, chromPos + window]`. */
  predicate InWindow(s: Settings, c: Cut, chromPos: int)
  {
    chromPos - s.window <= c.pos <= chromPos + s.window
  }

  /** What a cut adds when it lies in the window and raises nothing; zero otherwise. */
  function Contribution(v: Variant, s: Settings, c: Cut, chromPos: int, seqLen: int): real
  {
    var t := Term(v, s, c, chromPos, seqLen, true);
    if InWindow(s, c, chromPos) && t.Ok? then t.value else 0.0
  }

  /** Reference numerator: the contributions of all of `cuts[from..until]`, no cursor, no early exit. */
  function WindowSum(v: Variant, s: Settings, cuts: seq<Cut>, seqLen: int, chromPos: int, from: nat, until: nat): real
    requires from <= until <= |cuts|
    decreases until - from
  {
    if from == until then 0.0
    else Contribution(v, s, cuts[from], chromPos, seqLen) + WindowSum(v, s, cuts, seqLen, chromPos, from + 1, until)
  }

  /** Every in-window cut of `cuts[from..until]` evaluates without an exception. */
  ghost predicate WindowFits(v: Variant, s: Settings, cuts: seq<Cut>, seqLen: int, chromPos: int, from: nat, until: nat)
    requires from <= until <= |cuts|
  {
    forall j {:trigger InWindow(s, cuts[j], chromPos)} :: from <= j < until && InWindow(s, cuts[j], chromPos) ==> Term(v, s, cuts[j], chromPos, seqLen, true).Ok?
  }

  /** The reference density: the contributions of every cut, over the bandwidth. */
  function WindowDensity(v: Variant, s: Settings, cuts: seq<Cut>, seqLen: int, chromPos: int): real
    requires s.bandwidth != 0
  {
    WindowSum(v, s, cuts, seqLen, chromPos, 0, |cuts|) / s.bandwidth as real
  }

  lemma {:induction false} WindowSumLast(v: Variant, s: Settings, cuts: seq<Cut>, seqLen: int, chromPos: int, from: nat, until: nat)
    requires from < until <= |cuts|
    ensures WindowSum(v, s, cuts, seqLen, chromPos, from, until)
         == WindowSum(v, s, cuts, seqLen, chromPos, from, until - 1) + Contribution(v, s, cuts[until - 1], chromPos, seqLen)
    decreases until - from
  {
    if from < until - 1 {
      WindowSumLast(v, s, cuts, seqLen, chromPos, from + 1, until);
    }
  }

  lemma {:induction false} WindowSumSplit(v: Variant, s: Settings, cuts: seq<Cut>, seqLen: int, chromPos: int, from: nat, mid: nat, until: nat)
    requires from <= mid <= until <= |cuts|
    ensures WindowSum(v, s, cuts, seqLen, chromPos, from, until)
         == WindowSum(v, s, cuts, seqLen, chromPos, from, mid) + WindowSum(v, s, cuts, seqLen, chromPos, mid, until)
    decreases mid - from
  {
    if from < mid {
      WindowSumSplit(v, s, cuts, seqLen, chromPos, from + 1, mid, until);
    }
  }

  lemma {:induction false} WindowSumOutside(v: Variant, s: Settings, cuts: seq<Cut>, seqLen: int, chromPos: int, from: nat, until: nat)
    requires from <= until <= |cuts|
    requires forall j :: from <= j < until ==> !InWindow(s, cuts[j], chromPos)
    ensures WindowSum(v, s, cuts, seqLen, chromPos, from, until) == 0.0
    decreases until - from
  {
    if from < until {
      WindowSumOutside(v, s, cuts, seqLen, chromPos, from + 1, until);
    }
  }

  /**
   * Below the cursor, where no cut lies beyond the upper window edge, the backward loop raises
   * exactly when some in-window cut does, and otherwise sums exactly the in-window cuts.
   */
  lemma {:induction false} BackwardMatchesWindow(v: Variant, s: Settings, cuts: seq<Cut>, seqLen: int, chromPos: int, k: nat)
    requires TableFits(s) && Sorted(cuts) && k <= |cuts|
    requires forall j :: 0 <= j < k ==> cuts[j].pos <= chromPos + s.window
    ensures Backward(v, s, cuts, seqLen, chromPos, k).Ok? <==> WindowFits(v, s, cuts, seqLen, chromPos, 0, k)
    ensures Backward(v, s, cuts, seqLen, chromPos, k).Ok? ==>
              Backward(v, s, cuts, seqLen, chromPos, k).value == WindowSum(v, s, cuts, seqLen, chromPos, 0, k)
  {
    if k == 0 {
    } else if cuts[k - 1].pos < chromPos - s.window {
      forall j | 0 <= j < k ensures !InWindow(s, cuts[j], chromPos) {
        assert j == k - 1 || CompareTo(cuts[j], cuts[k - 1]) <= 0;
      }
      WindowSumOutside(v, s, cuts, seqLen, chromPos, 0, k);
    } else {
      var c := cuts[k - 1];
      assert InWindow(s, c, chromPos);
      TermCheckPasses(v, s, c, chromPos, seqLen);
      BackwardMatchesWindow(v, s, cuts, seqLen, chromPos, k - 1);
      var t := Term(v, s, c, chromPos, seqLen, true);
      if t.Ok? {
        WindowSumLast(v, s, cuts, seqLen, chromPos, 0, k);
      }
    }
  }

  /**
   * From the cursor on, where no cut lies below the lower window edge, the forward loop raises
   * exactly when some in-window cut does, and otherwise sums exactly the in-window cuts.
   */
  lemma {:induction false} ForwardMatchesWindow(v: Variant, s: Settings, cuts: seq<Cut>, seqLen: int, chromPos: int, j: nat)
    requires Sorted(cuts) && j <= |cuts|
    requires forall m :: j <= m < |cuts| ==> cuts[m].pos >= chromPos - s.window
    ensures Forward(v, s, cuts, seqLen, chromPos, j).Ok? <==> WindowFits(v, s, cuts, seqLen, chromPos, j, |cuts|)
    ensures Forward(v, s, cuts, seqLen, chromPos, j).Ok? ==>
              Forward(v, s, cuts, seqLen, chromPos, j).value == WindowSum(v, s, cuts, seqLen, chromPos, j, |cuts|)
    decreases |cuts| - j
  {
    if j == |cuts| {
    } else if cuts[j].pos > chromPos + s.window {
      forall m | j <= m < |cuts| ensures !InWindow(s, cuts[m], chromPos) {
        assert m == j || CompareTo(cuts[j], cuts[m]) <= 0;
      }
      WindowSumOutside(v, s, cuts, seqLen, chromPos, j, |cuts|);
    } else {
      assert InWindow(s, cuts[j], chromPos);
      ForwardMatchesWindow(v, s, cuts, seqLen, chromPos, j + 1);
    }
  }

  /**
   * The cursor-based estimate equals the reference: when every cut before `cutIdx` is at most
   * `chromPos + window` and every cut from `cutIdx` on is at least `chromPos - window`, the estimate
   * fails exactly when an in-window cut raises, and otherwise is the in-window sum over the bandwidth.
   */
  lemma EstimateMatchesWindow(v: Variant, s: Settings, cuts: seq<Cut>, seqLen: int, chromPos: int, cutIdx: nat)
    requires TableFits(s) && s.bandwidth != 0 && Sorted(cuts) && cutIdx <= |cuts|
    requires forall j :: 0 <= j < cutIdx ==> cuts[j].pos <= chromPos + s.window
    requires forall j :: cutIdx <= j < |cuts| ==> cuts[j].pos >= chromPos - s.window
    ensures Estimate(v, s, cuts, seqLen, chromPos, cutIdx).Ok? <==> WindowFits(v, s, cuts, seqLen, chromPos, 0, |cuts|)
    ensures Estimate(v, s, cuts, seqLen, chromPos, cutIdx).Ok? ==>
              Estimate(v, s, cuts, seqLen, chromPos, cutIdx).value
                == WindowDensity(v, s, cuts, seqLen, chromPos)
  {
    BackwardMatchesWindow(v, s, cuts, seqLen, chromPos, cutIdx);
    ForwardMatchesWindow(v, s, cuts, seqLen, chromPos, cutIdx);
    WindowSumSplit(v, s, cuts, seqLen, chromPos, 0, cutIdx, |cuts|);
  }

  /**
   * The indices the backward loop's window break lets it reach from `k`, exceptions aside. What the
   * loop itself sums is stated by `BackwardMatchesWindow`.
   */
  function BackwardVisits(s: Settings, cuts: seq<Cut>, chromPos: int, k: nat): set<nat>
    requires k <= |cuts|
  {
    if k == 0 || cuts[k - 1].pos < chromPos - s.window then {}
    else {k - 1} + BackwardVisits(s, cuts, chromPos, k - 1)
  }

  /**
   * The indices the forward loop's window break lets it reach from `j`, exceptions aside. What the
   * loop itself sums is stated by `ForwardMatchesWindow`.
   */
  function ForwardVisits(s: Settings, cuts: seq<Cut>, chromPos: int, j: nat): set<nat>
    requires j <= |cuts|
    decreases |cuts| - j
  {
    if j == |cuts| || cuts[j].pos > chromPos + s.window then {}
    else {j} + ForwardVisits(s, cuts, chromPos, j + 1)
  }

  lemma {:induction false} BackwardVisitsWindow(s: Settings, cuts: seq<Cut>, chromPos: int, k: nat)
    requires Sorted(cuts) && k <= |cuts|
    requires forall j :: 0 <= j < k ==> cuts[j].pos <= chromPos + s.window
    ensures BackwardVisits(s, cuts, chromPos, k) == set j: nat | j < k && InWindow(s, cuts[j], chromPos)
  {
    if k == 0 {
    } else if cuts[k - 1].pos < chromPos - s.window {
      forall j | 0 <= j < k ensures !InWindow(s, cuts[j], chromPos) {
        assert j == k - 1 || CompareTo(cuts[j], cuts[k - 1]) <= 0;
      }
    } else {
      BackwardVisitsWindow(s, cuts, chromPos, k - 1);
    }
  }

  lemma {:induction false} ForwardVisitsWindow(s: Settings, cuts: seq<Cut>, chromPos: int, j: nat)
    requires Sorted(cuts) && j <= |cuts|
    requires forall m :: j <= m < |cuts| ==> cuts[m].pos >= chromPos - s.window
    ensures ForwardVisits(s, cuts, chromPos, j) == set m: nat | j <= m < |cuts| && InWindow(s, cuts[m], chromPos)
    decreases |cuts| - j
  {
    if j == |cuts| {
    } else if cuts[j].pos > chromPos + s.window {
      forall m | j <= m < |cuts| ensures !InWindow(s, cuts[m], chromPos) {
        assert m == j || CompareTo(cuts[j], cuts[m]) <= 0;
      }
    } else {
      ForwardVisitsWindow(s, cuts, chromPos, j + 1);
    }
  }

  /**
   * With the cursor split as in `EstimateMatchesWindow`, the two loops together visit every cut in
   * the window, no other cut, and no cut from both sides.
   */
  lemma VisitsCoverWindow(s: Settings, cuts: seq<Cut>, chromPos: int, cutIdx: nat)
    requires Sorted(cuts) && cutIdx <= |cuts|
    requires forall j :: 0 <= j < cutIdx ==> cuts[j].pos <= chromPos + s.window
    requires forall j :: cutIdx <= j < |cuts| ==> cuts[j].pos >= chromPos - s.window
    ensures BackwardVisits(s, cuts, chromPos, cutIdx) + ForwardVisits(s, cuts, chromPos, cutIdx)
         == set j: nat | j < |cuts| && InWindow(s, cuts[j], chromPos)
    ensures BackwardVisits(s, cuts, chromPos, cutIdx) !! ForwardVisits(s, cuts, chromPos, cutIdx)
  {
    BackwardVisitsWindow(s, cuts, chromPos, cutIdx);
    ForwardVisitsWindow(s, cuts, chromPos, cutIdx);
  }

  // ---------------------------------------------------------------------------------------------
  // When the per-cut terms raise nothing, and how the variants relate.

  /** Outside the chip experiment, with the table as the constructors build it, no in-window cut raises. */
  lemma NonChipWindowFits(v: Variant, s: Settings, cuts: seq<Cut>, seqLen: int, chromPos: int, from: nat, until: nat)
    requires TableFits(s) && !IsChip(s) && from <= until <= |cuts|
    ensures WindowFits(v, s, cuts, seqLen, chromPos, from, until)
  {
    forall j | from <= j < until && InWindow(s, cuts[j], chromPos)
      ensures Term(v, s, cuts[j], chromPos, seqLen, true).Ok?
    {
      assert KernelDistance(v, s, cuts[j], chromPos) <= s.window;
    }
  }

  /**
   * In the chip experiment with `0 <= offset <= window`, the variants that shift a reverse-strand
   * cut by `-offset` keep every counted in-window cut inside the table.
   */
  lemma ChipWindowFits(v: Variant, s: Settings, cuts: seq<Cut>, seqLen: int, chromPos: int, from: nat, until: nat)
    requires TableFits(s) && IsChip(s) && 0 <= s.offset <= s.window && !v.Background?
    requires from <= until <= |cuts|
    ensures WindowFits(v, s, cuts, seqLen, chromPos, from, until)
  {
    forall j | from <= j < until && InWindow(s, cuts[j], chromPos)
      ensures Term(v, s, cuts[j], chromPos, seqLen, true).Ok?
    {
      var c := cuts[j];
      if Counts(s, c, chromPos) {
        assert KernelDistance(v, s, c, chromPos) <= s.window;
      }
    }
  }

  /**
   * `bgdensity` shifts a reverse-strand cut by `+offset` in the chip experiment, so a counted cut near
   * the upper window edge reads past the kernel table, where the other variants stay inside it.
   */
  lemma BackgroundChipOverrun()
    ensures var s := Settings([1.0, 1.0], 1, 1, 0.0, 1, "chip", 1.0);
            var track := Track(0, [1.0, 1.0]);
            var c := Cut(1, false, 1.0);
            && TableFits(s) && InWindow(s, c, 0)
            && Term(Background(track), s, c, 0, 0, true) == Err(IndexOutOfBounds)
            && Term(Plain, s, c, 0, 0, true) == Ok(1.0)
            && Term(Input(track), s, c, 0, 0, true) == Ok(1000.0)
  {
  }

  /** Two variants whose per-cut terms agree on every cut give the same estimate. */
  ghost predicate TermsAgree(v: Variant, w: Variant, s: Settings, cuts: seq<Cut>, seqLen: int, chromPos: int)
  {
    forall j, checked: bool :: 0 <= j < |cuts| ==>
      Term(v, s, cuts[j], chromPos, seqLen, checked) == Term(w, s, cuts[j], chromPos, seqLen, checked)
  }

  lemma {:induction false} AgreeingBackward(v: Variant, w: Variant, s: Settings, cuts: seq<Cut>, seqLen: int, chromPos: int, k: nat)
    requires k <= |cuts| && TermsAgree(v, w, s, cuts, seqLen, chromPos)
    ensures Backward(v, s, cuts, seqLen, chromPos, k) == Backward(w, s, cuts, seqLen, chromPos, k)
  {
    if k > 0 {
      AgreeingBackward(v, w, s, cuts, seqLen, chromPos, k - 1);
      assert Term(v, s, cuts[k - 1], chromPos, seqLen, false) == Term(w, s, cuts[k - 1], chromPos, seqLen, false);
    }
  }

  lemma {:induction false} AgreeingForward(v: Variant, w: Variant, s: Settings, cuts: seq<Cut>, seqLen: int, chromPos: int, j: nat)
    requires j <= |cuts| && TermsAgree(v, w, s, cuts, seqLen, chromPos)
    ensures Forward(v, s, cuts, seqLen, chromPos, j) == Forward(w, s, cuts, seqLen, chromPos, j)
    decreases |cuts| - j
  {
    if j < |cuts| {
      AgreeingForward(v, w, s, cuts, seqLen, chromPos, j + 1);
      assert Term(v, s, cuts[j], chromPos, seqLen, true) == Term(w, s, cuts[j], chromPos, seqLen, true);
    }
  }

  /**
   * Outside the chip experiment, a background track that covers every cut with the value 1 gives
   * exactly the uncorrected density, at every position and cursor.
   */
  lemma UniformBackgroundIsPlain(t: Track, s: Settings, cuts: seq<Cut>, seqLen: int, chromPos: int, cutIdx: nat)
    requires !IsChip(s) && s.bandwidth != 0 && cutIdx <= |cuts|
    requires forall k :: 0 <= k < |t.values| ==> t.values[k] == 1.0
    requires forall j :: 0 <= j < |cuts| ==> 0 <= TrackIndex(t, cuts[j], seqLen) < |t.values|
    ensures Estimate(Background(t), s, cuts, seqLen, chromPos, cutIdx) == Estimate(Plain, s, cuts, seqLen, chromPos, cutIdx)
  {
    forall j, checked: bool | 0 <= j < |cuts|
      ensures Term(Background(t), s, cuts[j], chromPos, seqLen, checked) == Term(Plain, s, cuts[j], chromPos, seqLen, checked)
    {
      var c := cuts[j];
      var b := TrackIndex(t, c, seqLen);
      assert t.values[b] == 1.0 && Covered(t, b);
      assert Correction(Background(t), c, seqLen) == Some(1.0) == Correction(Plain, c, seqLen);
      var d := KernelDistance(Plain, s, c, chromPos);
      assert KernelDistance(Background(t), s, c, chromPos) == d;
      if checked && Abs(c.pos - chromPos) >= |s.precompute| {
      } else if d < |s.precompute| {
        TermValue(Background(t), s, c, chromPos, seqLen, checked);
        TermValue(Plain, s, c, chromPos, seqLen, checked);
        var x, y := Term(Background(t), s, c, chromPos, seqLen, checked), Term(Plain, s, c, chromPos, seqLen, checked);
        assert x.value == s.precompute[d] * Correction(Background(t), c, seqLen).value * c.weight;
        assert y.value == s.precompute[d] * Correction(Plain, c, seqLen).value * c.weight;
        assert x.value == y.value;
      } else {
        assert Term(Plain, s, c, chromPos, seqLen, checked) == Err(IndexOutOfBounds);
        assert Term(Background(t), s, c, chromPos, seqLen, checked) == Err(IndexOutOfBounds);
      }
    }
    AgreeingBackward(Background(t), Plain, s, cuts, seqLen, chromPos, cutIdx);
    AgreeingForward(Background(t), Plain, s, cuts, seqLen, chromPos, cutIdx);
  }

  /**
   * The chip shift: in plain density a forward-strand cut at or before `chromPos` weighs exactly as
   * a cut `offset` further on does outside the chip experiment (a cut at 100 with offset 4 counts
   * as a cut at 104).
   */
  lemma ChipForwardShift(s: Settings, c: Cut, chromPos: int, seqLen: int, checked: bool)
    requires IsChip(s) && c.forward && c.pos <= chromPos
    requires !checked || Abs(c.pos - chromPos) < |s.precompute|
    ensures Term(Plain, s, c, chromPos, seqLen, checked)
         == Term(Plain, s.(experimentType := "generic"), c.(pos := c.pos + s.offset), chromPos, seqLen, false)
  {
    var generic, shifted := s.(experimentType := "generic"), c.(pos := c.pos + s.offset);
    var d := KernelDistance(Plain, s, c, chromPos);
    assert generic.experimentType[0] != "chip"[0];
    assert !IsChip(generic);
    assert KernelDistance(Plain, generic, shifted, chromPos) == d;
    if d < |s.precompute| {
      TermValue(Plain, s, c, chromPos, seqLen, checked);
      TermValue(Plain, generic, shifted, chromPos, seqLen, false);
      var x, y := Term(Plain, s, c, chromPos, seqLen, checked), Term(Plain, generic, shifted, chromPos, seqLen, false);
      assert x.value == s.precompute[d] * Correction(Plain, c, seqLen).value * c.weight;
      assert y.value == generic.precompute[d] * Correction(Plain, shifted, seqLen).value * shifted.weight;
      assert generic.precompute[d] == s.precompute[d];
      assert x.value == y.value;
    }
  }
}

=== FILE: kernel.dfy ===
/**
 * `KDEChromosome.Settings`: the kernel table and the parameters it is built from.
 * The Gaussian itself is not modelled: a `KernelShape` gives the normalised kernel value for a
 * bandwidth, a normalisation divisor and an integer distance, and an `Underflow` predicate says
 * whether that value is below the smallest positive float.
 */
module Kernel {

  /** `(bandwidth, ncuts, d)` to the table entry at distance `d`. */
  type KernelShape = (int, real, nat) -> real

  /** `(bandwidth, i)` to whether the kernel value at distance `i` is below the smallest positive float. */
  type Underflow = (int, int) -> bool

  /** The immutable settings of one run. `precompute[d]` is the kernel value at distance `d`. */
  datatype Settings = Settings(
    precompute: seq<real>,
    window: int,
    bandwidth: int,
    threshold: real,
    offset: int,
    experimentType: string,
    ncuts: real)

  /** Whether the experiment type is the string "chip". */
  predicate IsChip(s: Settings)
  {
    s.experimentType == "chip"
  }

  /** The table has one entry per distance `0..window`, as both constructors build it. */
  predicate TableFits(s: Settings)
  {
    s.window >= 0 && |s.precompute| == s.window + 1
  }

  /** `computeBandwidth`: the feature length over six, truncated toward zero. */
  function ComputeBandwidth(featureLength: int): (r: int)
    ensures 0 <= featureLength ==> 0 <= 6 * r <= featureLength < 6 * r + 6
    ensures featureLength < 0 ==> 6 * r - 6 < featureLength <= 6 * r <= 0
  {
    if featureLength >= 0 then featureLength / 6 else -((-featureLength) / 6)
  }

  /** Truncation toward zero is symmetric: negating the feature length negates the bandwidth. */
  lemma ComputeBandwidthOdd(featureLength: int)
    ensures ComputeBandwidth(-featureLength) == -ComputeBandwidth(featureLength)
  {
  }

  /**
   * `computeOptimalWindow`: counts up from 1400 and returns the last distance before the first
   * one (above 1400) whose kernel value underflows.
   */
  method ComputeOptimalWindow(bandwidth: int, underflows: Underflow) returns (w: int)
    requires exists k :: k > 1400 && underflows(bandwidth, k)
    ensures w >= 1400
    ensures underflows(bandwidth, w + 1)
    ensures forall j :: 1400 < j <= w ==> !underflows(bandwidth, j)
  {
    ghost var k :| k > 1400 && underflows(bandwidth, k);
    var i := 1400;
    while true
      invariant 1400 <= i < k
      invariant forall j :: 1400 < j <= i ==> !underflows(bandwidth, j)
      decreases k - i
    {
      i := i + 1;
      if underflows(bandwidth, i) {
        break;
      }
    }
    w := i - 1;
  }

  /** `precompute`: a fresh table of `window + 1` entries, entry `d` the kernel value at `d`. */
  method Precompute(window: nat, bandwidth: int, ncuts: real, kernel: KernelShape) returns (table: array<real>)
    ensures fresh(table) && table.Length == window + 1
    ensures forall d :: 0 <= d < table.Length ==> table[d] == kernel(bandwidth, ncuts, d)
  {
    table := new real[window + 1];
    var i := 0;
    while i < table.Length
      invariant 0 <= i <= table.Length
      invariant forall d :: 0 <= d < i ==> table[d] == kernel(bandwidth, ncuts, d)
    {
      table[i] := kernel(bandwidth, ncuts, i);
      i := i + 1;
    }
  }

  /** The constructor taking an explicit bandwidth and window. */
  method NewSettings(bandwidth: int, window: nat, threshold: real, offset: int, ncuts: real,
                     inputDataType: string, kernel: KernelShape) returns (s: Settings)
    ensures TableFits(s) && s.window == window && s.bandwidth == bandwidth
    ensures s.threshold == threshold && s.offset == offset && s.ncuts == ncuts
    ensures s.experimentType == inputDataType
    ensures forall d :: 0 <= d < |s.precompute| ==> s.precompute[d] == kernel(bandwidth, ncuts, d)
  {
    var table := Precompute(window, bandwidth, ncuts, kernel);
    s := Settings(table[..], window, bandwidth, threshold, offset, inputDataType, ncuts);
  }

  /** The constructor deriving bandwidth and window from a feature length. */
  method NewSettingsForFeature(featureLength: int, threshold: real, offset: int, ncuts: real,
                               inputDataType: string, kernel: KernelShape, underflows: Underflow)
    returns (s: Settings)
    requires exists k :: k > 1400 && underflows(ComputeBandwidth(featureLength), k)
    ensures TableFits(s) && s.window >= 1400
    ensures s.bandwidth == ComputeBandwidth(featureLength)
    ensures underflows(s.bandwidth, s.window + 1)
    ensures forall j :: 1400 < j <= s.window ==> !underflows(s.bandwidth, j)
    ensures s.threshold == threshold && s.offset == offset && s.ncuts == ncuts
    ensures s.experimentType == inputDataType
    ensures forall d :: 0 <= d < |s.precompute| ==> s.precompute[d] == kernel(s.bandwidth, ncuts, d)
  {
    var bandwidth := ComputeBandwidth(featureLength);
    var window := ComputeOptimalWindow(bandwidth, underflows);
    var table := Precompute(window, bandwidth, ncuts, kernel);
    s := Settings(table[..], window, bandwidth, threshold, offset, inputDataType, ncuts);
  }
}

=== FILE: samreader.dfy ===
/**
 * SamReader.read: turns the alignment records of one or more SAM/BAM files into one chromosome per
 * reference name. Each record becomes a cut at the 5' end of the read (the alignment start on the
 * reverse strand, the alignment end otherwise) weighted by its `XW` attribute, the cuts of a
 * reference are sorted by position, and every chromosome gets the read length of the first record.
 */
module SamReader {
  import opened Common
  import opened Cuts
  import opened Scanner

  /**
   * One alignment record as the reader sees it. `xw` is the `XW` attribute, `None` when it is
   * missing or cannot be read as a number. `Unparsable` is a record whose coordinates raise a
   * number-format error.
   */
  datatype Record =
    | Alignment(refName: string, start: int, end: int, negativeStrand: bool, xw: Option<real>)
    | Unparsable(refName: string)

  /** `badFile`: the I/O error naming the file (by its index) that held an unparsable record. */
  datatype ReadError = BadFile(file: nat)

  // ---------------------------------------------------------------------------------------------
  // One record.

  /**
   * The read weight: the `XW` attribute, clipped into `[1/clip, clip]` when `clip` is not zero;
   * 1.0 (and no clipping) when the attribute is missing or unreadable.
   */
  function ClipWeight(xw: Option<real>, clip: int): (w: real)
    ensures xw.None? ==> w == 1.0
    ensures xw.Some? && clip == 0 ==> w == xw.value
    ensures xw.Some? && clip >= 1 ==> 1.0 / clip as real <= w <= clip as real
    ensures xw.Some? && clip >= 1 && 1.0 / clip as real <= xw.value <= clip as real ==> w == xw.value
    ensures xw.Some? && clip != 0 && xw.value > clip as real ==> w == clip as real
    ensures xw.Some? && clip != 0 && xw.value <= clip as real && xw.value < 1.0 / clip as real
            ==> w == 1.0 / clip as real
  {
    match xw
    case None => 1.0
    case Some(x) =>
      if clip == 0 then x
      else if x > clip as real then clip as real
      else if x < 1.0 / clip as real then 1.0 / clip as real
      else x
  }

  /** Clipping a clipped weight again changes nothing. */
  lemma ClipWeightIdempotent(x: real, clip: int)
    requires clip >= 1
    ensures ClipWeight(Some(ClipWeight(Some(x), clip)), clip) == ClipWeight(Some(x), clip)
  {
  }

  /** Clipping keeps the order of weights: a heavier read never ends up lighter. */
  lemma ClipWeightMonotone(x: real, y: real, clip: int)
    requires clip >= 1 && x <= y
    ensures ClipWeight(Some(x), clip) <= ClipWeight(Some(y), clip)
  {
  }

  /** The cut of a record: the alignment start on the reverse strand, the alignment end otherwise. */
  function ToCut(r: Record, clip: int): (c: Cut)
    requires r.Alignment?
    ensures c.forward == !r.negativeStrand
    ensures c.pos == (if r.negativeStrand then r.start else r.end)
    ensures c.weight == ClipWeight(r.xw, clip)
  {
    if r.negativeStrand then Cut(r.start, false, ClipWeight(r.xw, clip))
    else Cut(r.end, true, ClipWeight(r.xw, clip))
  }

  // ---------------------------------------------------------------------------------------------
  // What a sequence of records amounts to.

  /** The records of all files, file after file. */
  function Flatten(files: seq<seq<Record>>): seq<Record>
  {
    if files == [] then [] else Flatten(files[..|files| - 1]) + files[|files| - 1]
  }

  /** Every record can be read. */
  predicate AllParsable(recs: seq<Record>)
  {
    forall k :: 0 <= k < |recs| ==> recs[k].Alignment?
  }

  /** The reference names in the order they first occur. */
  function Names(recs: seq<Record>): seq<string>
  {
    if recs == [] then []
    else
      var names := Names(recs[..|recs| - 1]);
      var n := recs[|recs| - 1].refName;
      if n in names then names else names + [n]
  }

  /** The cuts of the readable records of reference `name`, in record order. */
  function CutsOf(recs: seq<Record>, name: string, clip: int): seq<Cut>
  {
    if recs == [] then []
    else
      var r := recs[|recs| - 1];
      CutsOf(recs[..|recs| - 1], name, clip) + if r.Alignment? && r.refName == name then [ToCut(r, clip)] else []
  }

  /** The read length every chromosome receives: `end - start` of the first record, 0 without records. */
  function SequenceLength(recs: seq<Record>): int
  {
    if recs == [] || recs[0].Unparsable? then 0 else recs[0].end - recs[0].start
  }

  /** `Names` lists each reference name once. */
  lemma {:induction false} NamesDistinct(recs: seq<Record>)
    ensures forall i, j :: 0 <= i < j < |Names(recs)| ==> Names(recs)[i] != Names(recs)[j]
  {
    if recs != [] {
      NamesDistinct(recs[..|recs| - 1]);
    }
  }

  /** `Names` holds exactly the reference names of the records. */
  lemma {:induction false} NamesCover(recs: seq<Record>)
    ensures forall k :: 0 <= k < |recs| ==> recs[k].refName in Names(recs)
    ensures forall n :: n in Names(recs) ==> exists k :: 0 <= k < |recs| && recs[k].refName == n
  {
    if recs != [] {
      var init := recs[..|recs| - 1];
      NamesCover(init);
      forall n | n in Names(recs)
        ensures exists k :: 0 <= k < |recs| && recs[k].refName == n
      {
        if n in Names(init) {
          var k :| 0 <= k < |init| && init[k].refName == n;
          assert recs[k].refName == n;
        } else {
          assert recs[|recs| - 1].refName == n;
        }
      }
    }
  }

  /** When every record is readable, each name's group holds at least one cut. */
  lemma {:induction false} GroupNonEmpty(recs: seq<Record>, name: string, clip: int)
    requires AllParsable(recs) && name in Names(recs)
    ensures |CutsOf(recs, name, clip)| > 0
  {
    var init := recs[..|recs| - 1];
    if recs[|recs| - 1].refName != name {
      assert name in Names(init);
      GroupNonEmpty(init, name, clip);
    }
  }

  /** Every readable record's cut lands in the group of its own reference name. */
  lemma {:induction false} CutInGroup(recs: seq<Record>, k: nat, clip: int)
    requires k < |recs| && recs[k].Alignment?
    ensures ToCut(recs[k], clip) in CutsOf(recs, recs[k].refName, clip)
  {
    var init := recs[..|recs| - 1];
    if k < |recs| - 1 {
      assert init[k] == recs[k];
      CutInGroup(init, k, clip);
    }
  }

  /** Flattening one more file appends its records. */
  lemma FlattenSnoc(files: seq<seq<Record>>, i: nat)
    requires i < |files|
    ensures Flatten(files[..i + 1]) == Flatten(files[..i]) + files[i]
  {
    assert files[..i + 1][..i] == files[..i];
  }

  /** One more readable file extends the run of readable files. */
  lemma FilesParsableSnoc(files: seq<seq<Record>>, i: nat)
    requires i < |files| && AllParsable(files[i])
    requires forall f :: 0 <= f < i ==> AllParsable(files[f])
    ensures forall f :: 0 <= f < i + 1 ==> AllParsable(files[f])
  {
  }

  /** The records of files that are each readable throughout are readable throughout. */
  lemma {:induction false} FlattenParsable(files: seq<seq<Record>>)
    requires forall f :: 0 <= f < |files| ==> AllParsable(files[f])
    ensures AllParsable(Flatten(files))
  {
    if files != [] {
      var init := files[..|files| - 1];
      FlattenParsable(init);
      var a, b := Flatten(init), files[|files| - 1];
      assert AllParsable(b);
      forall k | 0 <= k < |a + b|
        ensures (a + b)[k].Alignment?
      {
        if k >= |a| {
          assert (a + b)[k] == b[k - |a|];
        }
      }
    }
  }

  /**
   * The reader's running state after the records `seen`: `keys` lists the reference names met so
   * far in order, and `chrMap` maps each of them, and nothing else, to the cuts of its records.
   */
  ghost predicate Grouped(seen: seq<Record>, clip: int, keys: seq<string>, chrMap: map<string, seq<Cut>>)
  {
    && keys == Names(seen)
    && chrMap.Keys == set n | n in keys
    && (forall n {:trigger CutsOf(seen, n, clip)} :: n in chrMap ==> chrMap[n] == CutsOf(seen, n, clip))
  }

  /** Adding a record's cut to the list of its reference name (created if new) keeps `Grouped`. */
  lemma GroupedAdd(seen: seq<Record>, r: Record, clip: int, keys: seq<string>, chrMap: map<string, seq<Cut>>)
    requires r.Alignment? && Grouped(seen, clip, keys, chrMap)
    ensures var isNew := r.refName !in chrMap;
            var withKey := if isNew then chrMap[r.refName := []] else chrMap;
            Grouped(seen + [r], clip, if isNew then keys + [r.refName] else keys,
                    withKey[r.refName := withKey[r.refName] + [ToCut(r, clip)]])
  {
    var all := seen + [r];
    assert all[..|all| - 1] == seen;
    var n := r.refName;
    if n !in chrMap {
      CutsOfUnnamed(seen, n, clip);
    }
    var keys' := if n !in chrMap then keys + [n] else keys;
    var withKey := if n !in chrMap then chrMap[n := []] else chrMap;
    var chrMap' := withKey[n := withKey[n] + [ToCut(r, clip)]];
    assert keys' == Names(all);
    assert chrMap'.Keys == set m | m in keys' by {
      assert chrMap'.Keys == chrMap.Keys + {n};
      assert (set m | m in keys') == (set m | m in keys) + {n};
    }
    forall m | m in chrMap'
      ensures chrMap'[m] == CutsOf(all, m, clip)
    {
      assert CutsOf(all, m, clip) == CutsOf(seen, m, clip) + if m == n then [ToCut(r, clip)] else [];
    }
  }

  /** A name that no record carries has no cuts. */
  lemma {:induction false} CutsOfUnnamed(recs: seq<Record>, name: string, clip: int)
    requires name !in Names(recs)
    ensures CutsOf(recs, name, clip) == []
  {
    if recs != [] {
      var init := recs[..|recs| - 1];
      assert name !in Names(init);
      CutsOfUnnamed(init, name, clip);
    }
  }

  /** Appending a readable record leaves the read length alone, or sets it from the first record. */
  lemma SequenceLengthSnoc(seen: seq<Record>, r: Record)
    ensures SequenceLength(seen + [r]) == if seen == [] then SequenceLength([r]) else SequenceLength(seen)
  {
    if seen != [] {
      assert (seen + [r])[0] == seen[0];
    }
  }

  /**
   * The whole running state of the reader after `seen`: the groups, and the read length, which is
   * set (from the first record) as soon as there is a record.
   */
  ghost predicate Reading(seen: seq<Record>, clip: int, keys: seq<string>, chrMap: map<string, seq<Cut>>,
                          lengthSet: bool, sequenceLength: int)
  {
    && Grouped(seen, clip, keys, chrMap)
    && lengthSet == (seen != [])
    && sequenceLength == SequenceLength(seen)
  }

  /** One readable record moves the running state from `seen` to `seen + [r]`. */
  lemma ReadingAdd(seen: seq<Record>, r: Record, clip: int, keys: seq<string>, chrMap: map<string, seq<Cut>>,
                   lengthSet: bool, sequenceLength: int)
    requires r.Alignment? && Reading(seen, clip, keys, chrMap, lengthSet, sequenceLength)
    ensures var isNew := r.refName !in chrMap;
            var withKey := if isNew then chrMap[r.refName := []] else chrMap;
            Reading(seen + [r], clip, if isNew then keys + [r.refName] else keys,
                    withKey[r.refName := withKey[r.refName] + [ToCut(r, clip)]],
                    true, if lengthSet then sequenceLength else r.end - r.start)
  {
    GroupedAdd(seen, r, clip, keys, chrMap);
    SequenceLengthSnoc(seen, r);
  }

  /** One more record of file `file` read after the records `pre`, all of them readable so far. */
  lemma PrefixStep(pre: seq<Record>, file: seq<Record>, j: nat)
    requires j < |file| && AllParsable(file[..j]) && file[j].Alignment?
    ensures pre + file[..j + 1] == (pre + file[..j]) + [file[j]]
    ensures AllParsable(file[..j + 1])
  {
    assert file[..j + 1] == file[..j] + [file[j]];
    forall k | 0 <= k < j
      ensures file[k].Alignment?
    {
      assert file[..j][k] == file[k];
    }
  }

  /**
   * The records of one file (`files[i]` in `SamReader.read`), read on top of the state left by the
   * records `pre` of the earlier files. `ok` is false, and the reader stops, at the first record
   * that cannot be parsed.
   */
  method ReadFile(file: seq<Record>, clip: int, ghost pre: seq<Record>, keys0: seq<string>,
                  chrMap0: map<string, seq<Cut>>, lengthSet0: bool, sequenceLength0: int)
    returns (ok: bool, keys: seq<string>, chrMap: map<string, seq<Cut>>, lengthSet: bool, sequenceLength: int)
    requires Reading(pre, clip, keys0, chrMap0, lengthSet0, sequenceLength0)
    ensures ok <==> AllParsable(file)
    ensures ok ==> Reading(pre + file, clip, keys, chrMap, lengthSet, sequenceLength)
  {
    keys, chrMap, lengthSet, sequenceLength := keys0, chrMap0, lengthSet0, sequenceLength0;
    ghost var seen := pre;
    for j := 0 to |file|
      invariant AllParsable(file[..j])
      invariant seen == pre + file[..j]
      invariant Reading(seen, clip, keys, chrMap, lengthSet, sequenceLength)
    {
      var rec := file[j];
      if rec.Unparsable? {
        return false, keys, chrMap, lengthSet, sequenceLength;
      }
      ReadingAdd(seen, rec, clip, keys, chrMap, lengthSet, sequenceLength);
      var chrom := rec.refName;
      if chrom !in chrMap {
        chrMap := chrMap[chrom := []];
        keys := keys + [chrom];
      }
      if !lengthSet {
        sequenceLength := rec.end - rec.start;
        lengthSet := true;
      }
      var cut := ToCut(rec, clip);
      chrMap := chrMap[chrom := chrMap[chrom] + [cut]];
      PrefixStep(pre, file, j);
      seen := seen + [rec];
    }
    assert file[..|file|] == file;
    ok := true;
  }

  /** After a read without errors, every name met has a non-empty list of cuts. */
  lemma GroupsNonEmpty(files: seq<seq<Record>>, clip: int, keys: seq<string>, chrMap: map<string, seq<Cut>>)
    requires forall f :: 0 <= f < |files| ==> AllParsable(files[f])
    requires Grouped(Flatten(files), clip, keys, chrMap)
    ensures forall n :: n in keys ==> n in chrMap && |chrMap[n]| > 0
  {
    FlattenParsable(files);
    forall n | n in keys
      ensures n in chrMap && |chrMap[n]| > 0
    {
      GroupNonEmpty(Flatten(files), n, clip);
    }
  }

  /**
   * What a successful read returns for the records `recs`: one chromosome per reference name, in
   * the order the names first occur, each holding the cuts of its name sorted by position, and all
   * with the read length of the first record.
   */
  ghost predicate ChromosomesOf(chrs: seq<Chromosome>, recs: seq<Record>, clip: int)
  {
    && |chrs| == |Names(recs)|
    && forall k :: 0 <= k < |chrs| ==>
         && chrs[k].name == Names(recs)[k]
         && chrs[k].Valid()
         && Sorted(chrs[k].cuts)
         && multiset(chrs[k].cuts) == multiset(CutsOf(recs, Names(recs)[k], clip))
         && chrs[k].sequenceLength == SequenceLength(recs)
  }

  /** Building every group of the final reader state yields the chromosomes of the records. */
  lemma BuiltAreChromosomesOf(recs: seq<Record>, clip: int, keys: seq<string>, chrMap: map<string, seq<Cut>>,
                              sequenceLength: int, chrs: seq<Chromosome>)
    requires Grouped(recs, clip, keys, chrMap) && sequenceLength == SequenceLength(recs)
    requires |chrs| == |keys|
    requires forall k :: 0 <= k < |keys| ==> Built(chrs[k], keys[k], chrMap[keys[k]], sequenceLength)
    ensures ChromosomesOf(chrs, recs, clip)
  {
    forall k | 0 <= k < |chrs|
      ensures multiset(chrs[k].cuts) == multiset(CutsOf(recs, Names(recs)[k], clip))
    {
      assert keys[k] in chrMap;
      assert chrMap[keys[k]] == CutsOf(recs, keys[k], clip);
    }
  }

  /**
   * `SamReader.read`: every record of every file, in order, adds its cut to the list of its
   * reference name; the first unparsable record fails the whole read with `badFile` for its file.
   * Then each reference name becomes a chromosome holding its cuts sorted by position, and every
   * chromosome receives the read length of the very first record.
   */
  method Read(files: seq<seq<Record>>, weightClip: int) returns (r: Result<seq<Chromosome>, ReadError>)
    ensures r.Ok? <==> forall f :: 0 <= f < |files| ==> AllParsable(files[f])
    ensures r.Err? ==> && r.error.file < |files| && !AllParsable(files[r.error.file])
                       && forall f :: 0 <= f < r.error.file ==> AllParsable(files[f])
    ensures r.Ok? ==> ChromosomesOf(r.value, Flatten(files), weightClip)
  {
    var chrMap: map<string, seq<Cut>> := map[];
    var keys: seq<string> := [];
    var lengthSet := false;
    var sequenceLength := 0;
    for i := 0 to |files|
      invariant forall f :: 0 <= f < i ==> AllParsable(files[f])
      invariant Reading(Flatten(files[..i]), weightClip, keys, chrMap, lengthSet, sequenceLength)
    {
      var ok;
      ok, keys, chrMap, lengthSet, sequenceLength :=
        ReadFile(files[i], weightClip, Flatten(files[..i]), keys, chrMap, lengthSet, sequenceLength);
      if !ok {
        return Err(BadFile(i));
      }
      FilesParsableSnoc(files, i);
      FlattenSnoc(files, i);
    }
    assert files[..|files|] == files;
    ghost var recs := Flatten(files);
    GroupsNonEmpty(files, weightClip, keys, chrMap);
    var chrs := NewChromosomes(keys, chrMap, sequenceLength);
    BuiltAreChromosomesOf(recs, weightClip, keys, chrMap, sequenceLength, chrs);
    r := Ok(chrs);
  }

  /** `c` is the chromosome built from the cuts `group` of reference `name`. */
  ghost predicate Built(c: Chromosome, name: string, group: seq<Cut>, sequenceLength: int)
  {
    && c.name == name
    && c.Valid()
    && Sorted(c.cuts)
    && multiset(c.cuts) == multiset(group)
    && c.sequenceLength == sequenceLength
  }

  /** Copies one group into an array, sorts it, and builds its chromosome. */
  method NewChromosome(name: string, group: seq<Cut>, sequenceLength: int) returns (c: Chromosome)
    requires |group| > 0
    ensures Built(c, name, group, sequenceLength)
  {
    var cuts := new Cut[|group|];
    for j := 0 to |group|
      invariant cuts[..j] == group[..j]
    {
      cuts[j] := group[j];
    }
    assert cuts[..] == group;
    SortCuts(cuts);
    c := new Chromosome(name, cuts[..], sequenceLength);
  }

  /** The loop over the reference names that builds one chromosome per name. */
  method NewChromosomes(keys: seq<string>, chrMap: map<string, seq<Cut>>, sequenceLength: int)
    returns (chrs: seq<Chromosome>)
    requires forall n :: n in keys ==> n in chrMap && |chrMap[n]| > 0
    ensures |chrs| == |keys|
    ensures forall k :: 0 <= k < |keys| ==> Built(chrs[k], keys[k], chrMap[keys[k]], sequenceLength)
  {
    chrs := [];
    for k := 0 to |keys|
      invariant |chrs| == k
      invariant forall m :: 0 <= m < k ==> Built(chrs[m], keys[m], chrMap[keys[m]], sequenceLength)
    {
      var c := NewChromosome(keys[k], chrMap[keys[k]], sequenceLength);
      chrs := chrs + [c];
    }
  }

  // ---------------------------------------------------------------------------------------------
  // Sorting one group in place.

  /** The sort of one chromosome's cuts under `CompareTo`: non-decreasing positions, the same cuts. */
  method SortCuts(a: array<Cut>)
    modifies a
    ensures Sorted(a[..]) && multiset(a[..]) == multiset(old(a[..]))
  {
    var i := 0;
    while i < a.Length
      invariant i <= a.Length
      invariant Sorted(a[..i])
      invariant multiset(a[..]) == multiset(old(a[..]))
    {
      InsertAt(a, i);
      i := i + 1;
    }
  }

  /**
   * Insertion of `s[i]` is under way and has reached index `j`: apart from the moving cut at `j`,
   * `s[..i + 1]` is sorted, and the moving cut is no larger than any cut after it.
   */
  ghost predicate Inserting(s: seq<Cut>, i: nat, j: nat)
    requires j <= i < |s|
  {
    && (forall k, m :: 0 <= k < m <= i && k != j && m != j ==> s[k].pos <= s[m].pos)
    && (forall m :: j < m <= i ==> s[j].pos <= s[m].pos)
  }

  /** Swapping the moving cut with a larger predecessor keeps `Inserting` one index lower. */
  lemma InsertingSwap(s: seq<Cut>, i: nat, j: nat)
    requires 0 < j <= i < |s| && Inserting(s, i, j) && s[j - 1].pos > s[j].pos
    ensures Inserting(s[j - 1 := s[j]][j := s[j - 1]], i, j - 1)
    ensures multiset(s[j - 1 := s[j]][j := s[j - 1]]) == multiset(s)
  {
    var t := s[j - 1 := s[j]][j := s[j - 1]];
    assert forall k :: 0 <= k <= i && k != j - 1 && k != j ==> t[k] == s[k];
    forall k, m | 0 <= k < m <= i && k != j - 1 && m != j - 1
      ensures t[k].pos <= t[m].pos
    {
      if m == j {
        assert t[m] == s[j - 1];
      } else if k == j {
        assert t[k] == s[j - 1];
      }
    }
    forall m | j - 1 < m <= i
      ensures t[j - 1].pos <= t[m].pos
    {
      if m == j {
        assert t[m] == s[j - 1];
      }
    }
  }

  /** Once the moving cut is at the front or no smaller than its predecessor, `s[..i + 1]` is sorted. */
  lemma InsertingDone(s: seq<Cut>, i: nat, j: nat)
    requires j <= i < |s| && Inserting(s, i, j) && (j == 0 || s[j - 1].pos <= s[j].pos)
    ensures Sorted(s[..i + 1])
  {
  }

  /** Moves `a[i]` down past the larger cuts before it, so that `a[..i + 1]` is sorted. */
  method InsertAt(a: array<Cut>, i: nat)
    requires i < a.Length && Sorted(a[..i])
    modifies a
    ensures Sorted(a[..i + 1]) && multiset(a[..]) == multiset(old(a[..]))
    ensures a[i + 1..] == old(a[i + 1..])
  {
    var j := i;
    while j > 0 && a[j - 1].pos > a[j].pos
      invariant 0 <= j <= i
      invariant Inserting(a[..], i, j)
      invariant multiset(a[..]) == multiset(old(a[..]))
      invariant a[i + 1..] == old(a[i + 1..])
    {
      ghost var s := a[..];
      InsertingSwap(s, i, j);
      a[j - 1], a[j] := a[j], a[j - 1];
      assert a[..] == s[j - 1 := s[j]][j := s[j - 1]];
      j := j - 1;
    }
    InsertingDone(a[..], i, j);
  }
}

=== FILE: scanner.dfy ===
/**
 * The per-chromosome scan of KDEChromosome.java: the constructor, the plain `run` and the `run`
 * overload that takes background and input files. The scan walks every base from the first cut up
 * to (not including) the last, evaluates the density there, keeps a monotone cursor into the sorted
 * cuts, counts peaks with a two-state detector, and hands the values to a `DensityWriter` in batches.
 */
module Scanner {
  import opened Common
  import opened Cuts
  import opened Kernel
  import opened Estimator

  /** The capacity of the batch buffer: ten times 1024 values. */
  const BATCH_SIZE: nat := 10240

  // ---------------------------------------------------------------------------------------------
  // The cursor `cutIdx`.

  /** The cursor step of one base: from `idx`, skip every cut whose position is below `pos`. */
  function Advance(cuts: seq<Cut>, idx: nat, pos: int): (r: nat)
    requires idx <= |cuts|
    ensures idx <= r <= |cuts|
    ensures forall j :: idx <= j < r ==> cuts[j].pos < pos
    ensures r == |cuts| || cuts[r].pos >= pos
    decreases |cuts| - idx
  {
    if idx < |cuts| && pos > cuts[idx].pos then Advance(cuts, idx + 1, pos) else idx
  }

  /**
   * The cursor when base `i` (position `first + i`) is evaluated: 0 for the first base, and
   * afterwards the cursor advanced past the previous position.
   */
  function CursorAt(cuts: seq<Cut>, first: int, i: nat): (r: nat)
    ensures r <= |cuts|
  {
    if i == 0 then 0 else Advance(cuts, CursorAt(cuts, first, i - 1), first + i - 1)
  }

  /** The cursor never moves backwards. */
  lemma {:induction false} CursorMonotone(cuts: seq<Cut>, first: int, i: nat, k: nat)
    requires i <= k
    ensures CursorAt(cuts, first, i) <= CursorAt(cuts, first, k)
    decreases k - i
  {
    if i < k {
      CursorMonotone(cuts, first, i, k - 1);
    }
  }

  /**
   * Over sorted cuts, when base `i > 0` is evaluated the cursor is the least index whose position is
   * at least the previous position `first + i - 1`: every cut before it lies below that position.
   */
  lemma {:induction false} CursorSplits(cuts: seq<Cut>, first: int, i: nat)
    requires Sorted(cuts)
    ensures forall j :: 0 <= j < CursorAt(cuts, first, i) ==> cuts[j].pos < first + i - 1
    ensures i > 0 ==> forall j :: CursorAt(cuts, first, i) <= j < |cuts| ==> cuts[j].pos >= first + i - 1
  {
    if i > 0 {
      CursorSplits(cuts, first, i - 1);
      var c := CursorAt(cuts, first, i);
      if c < |cuts| {
        forall j | c <= j < |cuts| ensures cuts[j].pos >= first + i - 1 {
          assert j == c || CompareTo(cuts[c], cuts[j]) <= 0;
        }
      }
    }
  }

  // ---------------------------------------------------------------------------------------------
  // The peak detector (`aboveThreshold`, `peaks`).

  datatype Detector = Detector(above: bool, peaks: nat)

  /**
   * One base: a value above the threshold while below counts a new peak, a value below it while
   * above ends the peak, and a value equal to the threshold changes nothing. The count over a
   * whole scan is pinned down by `DetectCountsRuns`.
   */
  function PeakStep(d: Detector, x: real, thr: real): (r: Detector)
    ensures x == thr ==> r == d
    ensures r.peaks == d.peaks || r.peaks == d.peaks + 1
    ensures r.peaks == d.peaks + 1 <==> !d.above && r.above
    ensures r.above != d.above ==> (r.above <==> x > thr)
  {
    if !d.above && x > thr then Detector(true, d.peaks + 1)
    else if d.above && x < thr then Detector(false, d.peaks)
    else d
  }

  /** The detector after the values `vals`, starting below the threshold with no peaks. */
  function Detect(vals: seq<real>, thr: real): Detector
  {
    if vals == [] then Detector(false, 0) else PeakStep(Detect(vals[..|vals| - 1], thr), vals[|vals| - 1], thr)
  }

  lemma DetectSnoc(vals: seq<real>, x: real, thr: real)
    ensures Detect(vals + [x], thr) == PeakStep(Detect(vals, thr), x, thr)
  {
    assert (vals + [x])[..|vals|] == vals;
  }

  /** The values with every value equal to the threshold removed: those never move the detector. */
  function Strip(vals: seq<real>, thr: real): (r: seq<real>)
    ensures |r| <= |vals|
    ensures forall k :: 0 <= k < |r| ==> r[k] != thr
  {
    if vals == [] then []
    else
      var rest := Strip(vals[..|vals| - 1], thr);
      if vals[|vals| - 1] == thr then rest else rest + [vals[|vals| - 1]]
  }

  /** Whether a run of values above the threshold starts at index `k`. */
  predicate StartsRun(s: seq<real>, k: nat, thr: real)
  {
    k < |s| && s[k] > thr && (k == 0 || s[k - 1] < thr)
  }

  /** The indices where a run of values above the threshold starts. */
  function RunStarts(s: seq<real>, thr: real): set<nat>
  {
    set k: nat | k < |s| && StartsRun(s, k, thr)
  }

  lemma RunStartsSnoc(s: seq<real>, x: real, thr: real)
    ensures RunStarts(s + [x], thr)
         == RunStarts(s, thr) + if x > thr && (|s| == 0 || s[|s| - 1] < thr) then {|s|} else {}
  {
    var t := s + [x];
    forall k: nat | k < |s| ensures StartsRun(t, k, thr) == StartsRun(s, k, thr) {
      assert t[k] == s[k];
      if k > 0 {
        assert t[k - 1] == s[k - 1];
      }
    }
    assert StartsRun(t, |s|, thr) == (x > thr && (|s| == 0 || s[|s| - 1] < thr));
  }

  /**
   * The detector counts exactly the rising edges: once values equal to the threshold are set aside,
   * `peaks` is the number of runs above the threshold, and `aboveThreshold` says whether the last
   * value left was above it.
   */
  lemma {:induction false} DetectCountsRuns(vals: seq<real>, thr: real)
    ensures var st := Strip(vals, thr);
            && (Detect(vals, thr).above <==> |st| > 0 && st[|st| - 1] > thr)
            && Detect(vals, thr).peaks == |RunStarts(st, thr)|
  {
    if vals == [] {
      assert RunStarts([], thr) == {};
    } else {
      var init, x := vals[..|vals| - 1], vals[|vals| - 1];
      DetectCountsRuns(init, thr);
      var st0 := Strip(init, thr);
      if x != thr {
        RunStartsSnoc(st0, x, thr);
        assert Strip(vals, thr) == st0 + [x];
        if x > thr && (|st0| == 0 || st0[|st0| - 1] < thr) {
          assert |st0| !in RunStarts(st0, thr);
        }
      }
    }
  }

  // ---------------------------------------------------------------------------------------------
  // The writer and the batches.

  /** One call on the `DensityWriter`: setting the threshold, or handing over the first `length` buffer values. */
  datatype WriterCall = ThresholdSet(threshold: real) | DensityWritten(length: nat, values: seq<real>)

  /** The output sink, reduced to the log of the calls it receives. */
  class DensityWriter {
    var log: seq<WriterCall>

    constructor()
      ensures log == []
    {
      log := [];
    }

    method SetThreshold(t: real)
      modifies this
      ensures log == old(log) + [ThresholdSet(t)]
    {
      log := log + [ThresholdSet(t)];
    }

    /** Receives `len` values of `buf` from `offset` on. */
    method WriteDensity(buf: array<real>, offset: nat, len: nat)
      requires offset + len <= buf.Length
      modifies this
      ensures log == old(log) + [DensityWritten(len, old(buf[offset..offset + len]))]
    {
      log := log + [DensityWritten(len, buf[offset..offset + len])];
    }
  }

  /** The full buffers written while `vals` were produced, one per `BATCH_SIZE` values. */
  function Batches(vals: seq<real>): seq<WriterCall>
    decreases |vals|
  {
    if |vals| < BATCH_SIZE then []
    else [DensityWritten(BATCH_SIZE, vals[..BATCH_SIZE])] + Batches(vals[BATCH_SIZE..])
  }

  /** The closing call that hands over the values left in the buffer, made even when none are left. */
  function FinalFlush(vals: seq<real>): WriterCall
  {
    DensityWritten(|vals| % BATCH_SIZE, vals[|vals| - |vals| % BATCH_SIZE..])
  }

  /** The values a log hands over, in call order. */
  function Written(log: seq<WriterCall>): seq<real>
  {
    if log == [] then [] else (if log[0].DensityWritten? then log[0].values else []) + Written(log[1..])
  }

  /** Appending one more call to the log, regrouped. */
  lemma LogAppend(log: seq<WriterCall>, flushed: seq<WriterCall>, call: WriterCall)
    ensures log + flushed + [call] == log + (flushed + [call])
  {
    assert |log + flushed + [call]| == |log + (flushed + [call])|;
  }

  lemma {:induction false} WrittenAppend(a: seq<WriterCall>, b: seq<WriterCall>)
    ensures Written(a + b) == Written(a) + Written(b)
  {
    if a == [] {
      assert a + b == b;
    } else {
      var head := if a[0].DensityWritten? then a[0].values else [];
      assert (a + b)[0] == a[0];
      assert (a + b)[1..] == a[1..] + b;
      WrittenAppend(a[1..], b);
      assert Written(a + b) == head + Written(a[1..] + b);
      assert Written(a) == head + Written(a[1..]);
    }
  }

  /** The buffer position of the next base: one on, or back to the start after the last slot. */
  lemma BufferStep(i: nat)
    ensures i % BATCH_SIZE < BATCH_SIZE
    ensures (i + 1) % BATCH_SIZE == if i % BATCH_SIZE == BATCH_SIZE - 1 then 0 else i % BATCH_SIZE + 1
  {
  }

  /** Storing a value in the next free slot of the buffer keeps the waiting values in order. */
  lemma BufferAppend(before: seq<real>, after: seq<real>, fill: nat, vals: seq<real>, x: real)
    requires fill < |before| && after == before[fill := x]
    requires fill <= |vals| && before[..fill] == vals[|vals| - fill..]
    ensures after[..fill + 1] == (vals + [x])[|vals| - fill..]
  {
    assert after[..fill] == before[..fill];
  }

  /** Producing one more value adds a full buffer exactly when it completes a batch. */
  lemma {:induction false} BatchesSnoc(u: seq<real>, x: real)
    ensures Batches(u + [x])
         == if (|u| + 1) % BATCH_SIZE == 0
            then Batches(u) + [DensityWritten(BATCH_SIZE, (u + [x])[|u| + 1 - BATCH_SIZE..])]
            else Batches(u)
    decreases |u|
  {
    var w := u + [x];
    if |u| < BATCH_SIZE {
      assert Batches(u) == [];
      if |w| == BATCH_SIZE {
        assert w[BATCH_SIZE..] == [];
        assert Batches(w) == [DensityWritten(BATCH_SIZE, w[..BATCH_SIZE])] + Batches([]);
        assert w[..BATCH_SIZE] == w[|u| + 1 - BATCH_SIZE..];
      } else {
        assert (|u| + 1) % BATCH_SIZE != 0;
      }
    } else {
      var rest := u[BATCH_SIZE..];
      var head := DensityWritten(BATCH_SIZE, u[..BATCH_SIZE]);
      assert w[..BATCH_SIZE] == u[..BATCH_SIZE];
      assert w[BATCH_SIZE..] == rest + [x];
      assert Batches(w) == [head] + Batches(rest + [x]);
      assert Batches(u) == [head] + Batches(rest);
      BatchesSnoc(rest, x);
      assert (|rest| + 1) % BATCH_SIZE == (|u| + 1) % BATCH_SIZE;
      if (|u| + 1) % BATCH_SIZE == 0 {
        assert (rest + [x])[|rest| + 1 - BATCH_SIZE..] == w[|u| + 1 - BATCH_SIZE..];
      }
    }
  }

  /**
   * The full buffers: `|vals| / BATCH_SIZE` calls, each of length `BATCH_SIZE`, handing over every
   * value except the last `|vals| % BATCH_SIZE`, in order.
   */
  lemma {:induction false} BatchesCover(vals: seq<real>)
    ensures Written(Batches(vals)) == vals[..|vals| - |vals| % BATCH_SIZE]
    ensures |Batches(vals)| == |vals| / BATCH_SIZE
    ensures forall k :: 0 <= k < |Batches(vals)| ==>
              Batches(vals)[k].DensityWritten? && Batches(vals)[k].length == BATCH_SIZE == |Batches(vals)[k].values|
    decreases |vals|
  {
    if |vals| >= BATCH_SIZE {
      var rest := vals[BATCH_SIZE..];
      BatchesCover(rest);
      var head := [DensityWritten(BATCH_SIZE, vals[..BATCH_SIZE])];
      WrittenAppend(head, Batches(rest));
      assert Written(head) == vals[..BATCH_SIZE];
      assert vals[..BATCH_SIZE] + rest[..|rest| - |rest| % BATCH_SIZE] == vals[..|vals| - |vals| % BATCH_SIZE];
    }
  }

  /**
   * A completed scan hands the writer every value exactly once and in ascending position: the full
   * buffers and the closing call together write `vals`, and every call's length is the number of
   * values it hands over.
   */
  lemma ScanWritesAll(vals: seq<real>)
    ensures Written(Batches(vals) + [FinalFlush(vals)]) == vals
    ensures forall k :: 0 <= k < |Batches(vals) + [FinalFlush(vals)]| ==>
              var call := (Batches(vals) + [FinalFlush(vals)])[k];
              call.DensityWritten? && call.length == |call.values|
    ensures FinalFlush(vals).length < BATCH_SIZE
  {
    BatchesCover(vals);
    WrittenAppend(Batches(vals), [FinalFlush(vals)]);
    assert Written([FinalFlush(vals)]) == vals[|vals| - |vals| % BATCH_SIZE..];
    assert vals[..|vals| - |vals| % BATCH_SIZE] + vals[|vals| - |vals| % BATCH_SIZE..] == vals;
  }

  // ---------------------------------------------------------------------------------------------
  // The values of a scan.

  /** A scan either produces every base's value or stops at the first base whose evaluation throws. */
  datatype ScanResult = Done(values: seq<real>) | Failed(at: nat, prefix: seq<real>, error: DensityError)

  /** The density at base `i`, position `first + i`, with the cursor the scan has there. */
  function BaseValue(v: Variant, s: Settings, cuts: seq<Cut>, seqLen: int, first: int, i: nat): Result<real, DensityError>
    requires s.bandwidth != 0
  {
    Estimate(v, s, cuts, seqLen, first + i, CursorAt(cuts, first, i))
  }

  /** The first `n` bases of a scan from `first`, each evaluated with the cursor of that base. */
  function Profile(v: Variant, s: Settings, cuts: seq<Cut>, seqLen: int, first: int, n: nat): ScanResult
    requires s.bandwidth != 0
  {
    if n == 0 then Done([])
    else match Profile(v, s, cuts, seqLen, first, n - 1)
      case Failed(at, prefix, e) => Failed(at, prefix, e)
      case Done(vals) =>
        match BaseValue(v, s, cuts, seqLen, first, n - 1)
        case Err(e) => Failed(n - 1, vals, e)
        case Ok(x) => Done(vals + [x])
  }

  lemma BaseValueAt(v: Variant, s: Settings, cuts: seq<Cut>, seqLen: int, first: int, i: nat, chromPos: int, cutIdx: nat)
    requires s.bandwidth != 0 && chromPos == first + i && cutIdx == CursorAt(cuts, first, i)
    ensures Estimate(v, s, cuts, seqLen, chromPos, cutIdx) == BaseValue(v, s, cuts, seqLen, first, i)
  {
  }

  /** One more base: the scan either takes its value or stops there with its exception. */
  lemma ProfileStep(v: Variant, s: Settings, cuts: seq<Cut>, seqLen: int, first: int, i: nat, vals: seq<real>)
    requires s.bandwidth != 0 && Profile(v, s, cuts, seqLen, first, i) == Done(vals)
    ensures var b := BaseValue(v, s, cuts, seqLen, first, i);
            Profile(v, s, cuts, seqLen, first, i + 1) == if b.Ok? then Done(vals + [b.value]) else Failed(i, vals, b.error)
  {
  }

  /** Once a base throws, later bases change nothing. */
  lemma {:induction false} ProfileFailedStays(v: Variant, s: Settings, cuts: seq<Cut>, seqLen: int, first: int, m: nat, n: nat)
    requires s.bandwidth != 0 && m <= n && Profile(v, s, cuts, seqLen, first, m).Failed?
    ensures Profile(v, s, cuts, seqLen, first, n) == Profile(v, s, cuts, seqLen, first, m)
    decreases n - m
  {
    if m < n {
      ProfileFailedStays(v, s, cuts, seqLen, first, m, n - 1);
    }
  }

  /**
   * What a scan of `n` bases is: base `i` is position `first + i` evaluated with `CursorAt(i)`; a
   * completed scan holds one value per base in ascending position, and a failed one stops at the
   * first base that throws, holding the values before it.
   */
  lemma {:induction false} ProfileShape(v: Variant, s: Settings, cuts: seq<Cut>, seqLen: int, first: int, n: nat)
    requires s.bandwidth != 0
    ensures var p := Profile(v, s, cuts, seqLen, first, n);
            p.Done? ==> |p.values| == n && forall i :: 0 <= i < n ==>
                          BaseValue(v, s, cuts, seqLen, first, i) == Ok(p.values[i])
    ensures var p := Profile(v, s, cuts, seqLen, first, n);
            p.Failed? ==> && p.at < n && |p.prefix| == p.at
                          && BaseValue(v, s, cuts, seqLen, first, p.at) == Err(p.error)
                          && forall i :: 0 <= i < p.at ==>
                               BaseValue(v, s, cuts, seqLen, first, i) == Ok(p.prefix[i])
  {
    if n > 0 {
      ProfileShape(v, s, cuts, seqLen, first, n - 1);
      var prev := Profile(v, s, cuts, seqLen, first, n - 1);
      if prev.Done? {
        var e := BaseValue(v, s, cuts, seqLen, first, n - 1);
        if e.Ok? {
          var vals := prev.values + [e.value];
          assert Profile(v, s, cuts, seqLen, first, n) == Done(vals);
          forall i | 0 <= i < n
            ensures BaseValue(v, s, cuts, seqLen, first, i) == Ok(vals[i])
          {
            if i < n - 1 {
              assert vals[i] == prev.values[i];
            }
          }
        } else {
          assert Profile(v, s, cuts, seqLen, first, n) == Failed(n - 1, prev.values, e.error);
        }
      }
    }
  }

  /** Every in-window cut at base `i` evaluates without an exception. */
  ghost predicate FitsAt(v: Variant, s: Settings, cuts: seq<Cut>, seqLen: int, first: int, i: nat)
  {
    WindowFits(v, s, cuts, seqLen, first + i, 0, |cuts|)
  }

  /**
   * At every base of a scan over sorted cuts starting at `first`, with the table as the constructors
   * build it and a window of at least 1, the cursor splits the cuts as the estimator needs: the
   * density throws exactly when an in-window cut does, and is otherwise the sum over the cuts in the
   * window of `first + i`, divided by the bandwidth.
   */
  lemma BaseIsWindowDensity(v: Variant, s: Settings, cuts: seq<Cut>, seqLen: int, i: nat)
    requires TableFits(s) && s.window >= 1 && s.bandwidth != 0
    requires Sorted(cuts) && |cuts| > 0
    ensures BaseValue(v, s, cuts, seqLen, cuts[0].pos, i).Ok? <==> FitsAt(v, s, cuts, seqLen, cuts[0].pos, i)
    ensures BaseValue(v, s, cuts, seqLen, cuts[0].pos, i).Ok? ==>
              BaseValue(v, s, cuts, seqLen, cuts[0].pos, i).value
                == WindowDensity(v, s, cuts, seqLen, cuts[0].pos + i)
  {
    var first := cuts[0].pos;
    var c := CursorAt(cuts, first, i);
    CursorSplits(cuts, first, i);
    forall j | c <= j < |cuts| ensures cuts[j].pos >= first + i - s.window {
      assert j == 0 || CompareTo(cuts[0], cuts[j]) <= 0;
    }
    EstimateMatchesWindow(v, s, cuts, seqLen, first + i, c);
    assert BaseValue(v, s, cuts, seqLen, first, i) == Estimate(v, s, cuts, seqLen, first + i, c);
  }

  /** Over such cuts the scan completes exactly when no in-window cut throws at any base. */
  lemma ProfileCompletes(v: Variant, s: Settings, cuts: seq<Cut>, seqLen: int, n: nat)
    requires TableFits(s) && s.window >= 1 && s.bandwidth != 0
    requires Sorted(cuts) && |cuts| > 0
    ensures Profile(v, s, cuts, seqLen, cuts[0].pos, n).Done?
        <==> forall i :: 0 <= i < n ==> FitsAt(v, s, cuts, seqLen, cuts[0].pos, i)
  {
    var first := cuts[0].pos;
    ProfileShape(v, s, cuts, seqLen, first, n);
    forall i | 0 <= i < n
      ensures BaseValue(v, s, cuts, seqLen, first, i).Ok? <==> FitsAt(v, s, cuts, seqLen, first, i)
    {
      BaseIsWindowDensity(v, s, cuts, seqLen, i);
    }
  }

  /** Over such cuts a completed scan holds at base `i` the window density of position `first + i`. */
  lemma ProfileIsWindowDensity(v: Variant, s: Settings, cuts: seq<Cut>, seqLen: int, n: nat, i: nat)
    requires TableFits(s) && s.window >= 1 && s.bandwidth != 0
    requires Sorted(cuts) && |cuts| > 0 && i < n
    ensures var p := Profile(v, s, cuts, seqLen, cuts[0].pos, n);
            p.Done? ==> |p.values| == n && p.values[i] == WindowDensity(v, s, cuts, seqLen, cuts[0].pos + i)
  {
    ProfileShape(v, s, cuts, seqLen, cuts[0].pos, n);
    BaseIsWindowDensity(v, s, cuts, seqLen, i);
  }

  /**
   * The scan over a sorted chromosome completes outside the chip experiment, and in it for every
   * variant but the background one when `0 <= offset <= window`; base `i` then holds the window
   * density of position `first + i`.
   */
  lemma ProfileSucceeds(v: Variant, s: Settings, cuts: seq<Cut>, seqLen: int, n: nat, i: nat)
    requires TableFits(s) && s.window >= 1 && s.bandwidth != 0
    requires Sorted(cuts) && |cuts| > 0 && i < n
    requires !IsChip(s) || (0 <= s.offset <= s.window && !v.Background?)
    ensures var p := Profile(v, s, cuts, seqLen, cuts[0].pos, n);
            && p.Done? && |p.values| == n
            && p.values[i] == WindowDensity(v, s, cuts, seqLen, cuts[0].pos + i)
  {
    forall k | 0 <= k < n ensures FitsAt(v, s, cuts, seqLen, cuts[0].pos, k) {
      if IsChip(s) {
        ChipWindowFits(v, s, cuts, seqLen, cuts[0].pos + k, 0, |cuts|);
      } else {
        NonChipWindowFits(v, s, cuts, seqLen, cuts[0].pos + k, 0, |cuts|);
      }
    }
    ProfileCompletes(v, s, cuts, seqLen, n);
    ProfileIsWindowDensity(v, s, cuts, seqLen, n, i);
  }

  /**
   * Why the lemmas above ask for a window of at least 1: the cursor lags one base behind, so with a
   * window of 0 the forward loop meets the previous base's cut at distance 1 and throws, although no
   * cut in the window of that base throws.
   */
  lemma ZeroWindowLagFails()
    ensures var s := Settings([1.0], 0, 1, 0.0, 0, "generic", 1.0);
            var cuts := [Cut(0, true, 1.0), Cut(5, true, 1.0)];
            && TableFits(s) && Sorted(cuts)
            && FitsAt(Plain, s, cuts, 0, 0, 1)
            && BaseValue(Plain, s, cuts, 0, 0, 1) == Err(IllegalState)
  {
    var s := Settings([1.0], 0, 1, 0.0, 0, "generic", 1.0);
    var cuts := [Cut(0, true, 1.0), Cut(5, true, 1.0)];
    assert "generic"[0] != "chip"[0];
    assert CursorAt(cuts, 0, 1) == 0;
    NonChipWindowFits(Plain, s, cuts, 0, 1, 0, |cuts|);
    assert Term(Plain, s, cuts[0], 1, 0, true) == Err(IllegalState);
    assert Forward(Plain, s, cuts, 0, 1, 0) == Err(IllegalState);
  }

  /**
   * The bookkeeping of one base that evaluates to `x`: the scan takes the value, the buffer keeps
   * the waiting values in order, and a full buffer is exactly the next batch.
   */
  lemma ScanStep(v: Variant, s: Settings, cuts: seq<Cut>, seqLen: int, first: int, i: nat, vals: seq<real>, x: real,
                 fill: nat, before: seq<real>, after: seq<real>)
    requires s.bandwidth != 0 && |vals| == i
    requires Profile(v, s, cuts, seqLen, first, i) == Done(vals) && BaseValue(v, s, cuts, seqLen, first, i) == Ok(x)
    requires fill == i % BATCH_SIZE && |before| == BATCH_SIZE && before[..fill] == vals[i - fill..]
    requires after == before[fill := x]
    ensures Profile(v, s, cuts, seqLen, first, i + 1) == Done(vals + [x])
    ensures (i + 1) % BATCH_SIZE == if fill == BATCH_SIZE - 1 then 0 else fill + 1
    ensures var next := if fill == BATCH_SIZE - 1 then 0 else fill + 1;
            after[..next] == (vals + [x])[i + 1 - next..]
    ensures Batches(vals + [x])
         == if fill == BATCH_SIZE - 1 then Batches(vals) + [DensityWritten(BATCH_SIZE, after[0..BATCH_SIZE])] else Batches(vals)
  {
    ProfileStep(v, s, cuts, seqLen, first, i, vals);
    BufferStep(i);
    BufferAppend(before, after, fill, vals, x);
    BatchesSnoc(vals, x);
    if fill == BATCH_SIZE - 1 {
      assert after[0..BATCH_SIZE] == after[..fill + 1];
    }
  }

  /** The state of the scan after `i` of `n` bases: the values so far, the cursor, the detector,
      the buffer holding the values not yet flushed, and the batches already written. */
  ghost predicate ScanInv(v: Variant, s: Settings, cuts: seq<Cut>, seqLen: int, first: int, thr: real, n: nat,
                          i: nat, vals: seq<real>, cutIdx: nat, above: bool, peaks: nat,
                          fill: nat, buf: seq<real>, flushed: seq<WriterCall>)
    requires s.bandwidth != 0
  {
    && i <= n && |vals| == i
    && cutIdx == CursorAt(cuts, first, i)
    && Profile(v, s, cuts, seqLen, first, i) == Done(vals)
    && Detect(vals, thr) == Detector(above, peaks)
    && fill == i % BATCH_SIZE && |buf| == BATCH_SIZE
    && buf[..fill] == vals[i - fill..]
    && flushed == Batches(vals)
  }

  /** One base evaluated without an exception keeps `ScanInv`. */
  lemma ScanInvStep(v: Variant, s: Settings, cuts: seq<Cut>, seqLen: int, first: int, thr: real, n: nat,
                    i: nat, vals: seq<real>, cutIdx: nat, above: bool, peaks: nat,
                    fill: nat, buf: seq<real>, flushed: seq<WriterCall>, x: real,
                    cutIdx': nat, above': bool, peaks': nat, fill': nat, buf': seq<real>, flushed': seq<WriterCall>)
    requires s.bandwidth != 0 && i < n
    requires ScanInv(v, s, cuts, seqLen, first, thr, n, i, vals, cutIdx, above, peaks, fill, buf, flushed)
    requires BaseValue(v, s, cuts, seqLen, first, i) == Ok(x)
    requires cutIdx' == Advance(cuts, cutIdx, first + i)
    requires Detector(above', peaks') == PeakStep(Detector(above, peaks), x, thr)
    requires fill' == if fill == BATCH_SIZE - 1 then 0 else fill + 1
    requires buf' == buf[fill := x]
    requires flushed' == if fill == BATCH_SIZE - 1 then flushed + [DensityWritten(BATCH_SIZE, buf')] else flushed
    ensures ScanInv(v, s, cuts, seqLen, first, thr, n, i + 1, vals + [x], cutIdx', above', peaks', fill', buf', flushed')
  {
    ScanStep(v, s, cuts, seqLen, first, i, vals, x, fill, buf, buf');
    DetectSnoc(vals, x, thr);
    assert cutIdx' == CursorAt(cuts, first, i + 1);
    assert Detect(vals + [x], thr) == Detector(above', peaks');
    if fill == BATCH_SIZE - 1 {
      assert buf'[0..BATCH_SIZE] == buf';
      assert flushed' == Batches(vals + [x]);
    } else {
      assert flushed' == Batches(vals + [x]);
    }
  }

  /** A base that throws ends the scan with its exception, after the batches already written. */
  lemma ScanInvFails(v: Variant, s: Settings, cuts: seq<Cut>, seqLen: int, first: int, thr: real, n: nat,
                     i: nat, vals: seq<real>, cutIdx: nat, above: bool, peaks: nat,
                     fill: nat, buf: seq<real>, flushed: seq<WriterCall>, e: DensityError)
    requires s.bandwidth != 0 && i < n
    requires ScanInv(v, s, cuts, seqLen, first, thr, n, i, vals, cutIdx, above, peaks, fill, buf, flushed)
    requires BaseValue(v, s, cuts, seqLen, first, i) == Err(e)
    ensures var p := Profile(v, s, cuts, seqLen, first, n);
            ScanOutcome(p, thr) == Err(e) && ScanLog(p) == flushed
  {
    ProfileStep(v, s, cuts, seqLen, first, i, vals);
    ProfileFailedStays(v, s, cuts, seqLen, first, i + 1, n);
  }

  /** After all `n` bases, the scan's outcome is the detector's count, and the buffer holds the final flush. */
  lemma ScanInvEnds(v: Variant, s: Settings, cuts: seq<Cut>, seqLen: int, first: int, thr: real, n: nat,
                    vals: seq<real>, cutIdx: nat, above: bool, peaks: nat,
                    fill: nat, buf: seq<real>, flushed: seq<WriterCall>)
    requires s.bandwidth != 0
    requires ScanInv(v, s, cuts, seqLen, first, thr, n, n, vals, cutIdx, above, peaks, fill, buf, flushed)
    ensures fill == n % BATCH_SIZE && fill <= |buf|
    ensures var p := Profile(v, s, cuts, seqLen, first, n);
            ScanOutcome(p, thr) == Ok(peaks) && ScanLog(p) == flushed + [DensityWritten(fill, buf[0..fill])]
  {
    assert buf[0..fill] == vals[n - fill..];
  }

  /**
   * One base of the scan loop: evaluates the density at `chromPos`, stores it in the buffer, updates
   * the peak detector, advances the cursor and hands a full buffer to the writer. An exception from
   * the density function leaves everything as it was.
   */
  method ScanBase(v: Variant, s: Settings, cuts: seq<Cut>, seqLen: int, thr: real, chromPos: int, arrPos: nat,
                  cutIdx: nat, above: bool, peaks: nat, density: array<real>, dw: DensityWriter,
                  ghost log0: seq<WriterCall>, ghost flushed: seq<WriterCall>)
    returns (x: Result<real, DensityError>, cutIdx': nat, above': bool, peaks': nat, ghost flushed': seq<WriterCall>)
    requires s.bandwidth != 0 && cutIdx <= |cuts|
    requires density.Length == BATCH_SIZE && arrPos < BATCH_SIZE && dw.log == log0 + flushed
    modifies density, dw
    ensures x == Estimate(v, s, cuts, seqLen, chromPos, cutIdx)
    ensures x.Err? ==> density[..] == old(density[..]) && dw.log == old(dw.log) && flushed' == flushed
    ensures x.Ok? ==>
              && density[..] == old(density[..])[arrPos := x.value]
              && Detector(above', peaks') == PeakStep(Detector(above, peaks), x.value, thr)
              && cutIdx' == Advance(cuts, cutIdx, chromPos)
              && flushed' == (if arrPos == BATCH_SIZE - 1 then flushed + [DensityWritten(BATCH_SIZE, density[..])] else flushed)
              && dw.log == log0 + flushed'
  {
    cutIdx', above', peaks', flushed' := cutIdx, above, peaks, flushed;
    x := Density(v, s, cuts, seqLen, chromPos, cutIdx);
    if x.Err? {
      return;
    }
    density[arrPos] := x.value;
    if !above' && density[arrPos] > thr {
      above' := true;
      peaks' := peaks' + 1;
    } else if above' && density[arrPos] < thr {
      above' := false;
    }
    cutIdx' := MoveCursor(cuts, cutIdx, chromPos);
    if arrPos == BATCH_SIZE - 1 {
      ghost var call := DensityWritten(BATCH_SIZE, density[..]);
      assert density[0..BATCH_SIZE] == density[..];
      dw.WriteDensity(density, 0, BATCH_SIZE);
      LogAppend(log0, flushed, call);
      flushed' := flushed + [call];
    }
  }

  /** The cursor loop of one base, advancing past the cuts below `pos`. */
  method MoveCursor(cuts: seq<Cut>, idx: nat, pos: int) returns (r: nat)
    requires idx <= |cuts|
    ensures r == Advance(cuts, idx, pos)
  {
    r := idx;
    while r < |cuts| && pos > cuts[r].pos
      invariant idx <= r <= |cuts|
      invariant Advance(cuts, r, pos) == Advance(cuts, idx, pos)
      decreases |cuts| - r
    {
      r := r + 1;
    }
  }

  /** What the writer receives from a scan after `setThreshold`. */
  function ScanLog(p: ScanResult): seq<WriterCall>
  {
    match p
    case Done(vals) => Batches(vals) + [FinalFlush(vals)]
    case Failed(_, prefix, _) => Batches(prefix)
  }

  /** The peak count of a completed scan, or the exception that ended it. */
  function ScanOutcome(p: ScanResult, thr: real): Result<nat, DensityError>
  {
    match p
    case Done(vals) => Ok(Detect(vals, thr).peaks)
    case Failed(_, _, e) => Err(e)
  }

  /** A single-position chromosome evaluates no base and closes with one empty write. */
  lemma SinglePositionWritesEmpty(v: Variant, s: Settings, cuts: seq<Cut>, seqLen: int, first: int, last: int)
    requires s.bandwidth != 0 && first == last
    ensures ScanLog(Profile(v, s, cuts, seqLen, first, Abs(last - first))) == [DensityWritten(0, [])]
  {
  }

  // ---------------------------------------------------------------------------------------------
  // Choosing the correction tracks.

  /** A correction file: its name and the track read from it. */
  datatype TrackFile = TrackFile(name: string, track: Track)

  /** The track of the last file called `wanted`, if any. */
  function LastMatch(files: seq<TrackFile>, wanted: string): Option<Track>
  {
    if files == [] then None
    else if files[|files| - 1].name == wanted then Some(files[|files| - 1].track)
    else LastMatch(files[..|files| - 1], wanted)
  }

  /** No match means no file has the name; a match is a file with the name and no later one has it. */
  lemma {:induction false} LastMatchSpec(files: seq<TrackFile>, wanted: string)
    ensures LastMatch(files, wanted).None? <==> forall j :: 0 <= j < |files| ==> files[j].name != wanted
    ensures LastMatch(files, wanted).Some? ==>
              exists j :: && 0 <= j < |files| && files[j].name == wanted
                          && files[j].track == LastMatch(files, wanted).value
                          && forall k :: j < k < |files| ==> files[k].name != wanted
  {
    if files != [] {
      var init := files[..|files| - 1];
      LastMatchSpec(init, wanted);
      if files[|files| - 1].name != wanted {
        if LastMatch(init, wanted).Some? {
          var j :| && 0 <= j < |init| && init[j].name == wanted
                   && init[j].track == LastMatch(init, wanted).value
                   && forall k :: j < k < |init| ==> init[k].name != wanted;
          assert files[j] == init[j];
        }
      } else {
        assert files[|files| - 1].name == wanted;
      }
    }
  }

  /** The loop over the file list that keeps the last file with the wanted name. */
  method FindTrack(files: seq<TrackFile>, wanted: string) returns (hit: Option<Track>)
    ensures hit == LastMatch(files, wanted)
  {
    hit := None;
    var j := 0;
    while j < |files|
      invariant j <= |files|
      invariant hit == LastMatch(files[..j], wanted)
    {
      assert files[..j + 1][..j] == files[..j];
      if files[j].name == wanted {
        hit := Some(files[j].track);
      }
      j := j + 1;
    }
    assert files[..j] == files;
  }

  /** Which density function the scan calls, by which correction tracks are in use. */
  function Select(bg: Option<Track>, ip: Option<Track>): (v: Variant)
    ensures v.Plain? <==> bg.None? && ip.None?
    ensures v.Background? <==> bg.Some? && ip.None?
    ensures v.Input? <==> bg.None? && ip.Some?
    ensures v.Full? <==> bg.Some? && ip.Some?
    ensures (v.Background? || v.Full?) ==> v.bg == bg.value
    ensures (v.Input? || v.Full?) ==> v.ip == ip.value
  {
    match (bg, ip)
    case (None, None) => Plain
    case (Some(b), None) => Background(b)
    case (None, Some(i)) => Input(i)
    case (Some(b), Some(i)) => Full(b, i)
  }

  /** A corrected run either stops for a missing track or scans. */
  datatype RunOutcome = NoTrack | Scanned(result: Result<nat, DensityError>)

  // ---------------------------------------------------------------------------------------------
  // The chromosome.

  /** `KDEChromosome`: a named chromosome with its cuts, their extent and their total weight. */
  class Chromosome {
    const name: string
    const cuts: seq<Cut>
    const firstCut: int
    const lastCut: int
    const sequenceLength: int
    const totalWeight: real
    var threshold: real

    /** The state the constructor establishes. */
    ghost predicate Valid()
    {
      && |cuts| > 0
      && firstCut == cuts[0].pos && lastCut == cuts[|cuts| - 1].pos
      && totalWeight == TotalWeight(cuts)
    }

    /** Keeps the cuts, records the first and last positions, and sums the weights in a loop. */
    constructor(name: string, cuts: seq<Cut>, sequenceLength: int)
      requires |cuts| > 0
      ensures this.name == name && this.cuts == cuts && this.sequenceLength == sequenceLength
      ensures threshold == 0.0
      ensures Valid()
    {
      var total := 0.0;
      var i := 0;
      while i < |cuts|
        invariant i <= |cuts|
        invariant total == TotalWeight(cuts[..i])
      {
        assert cuts[..i + 1][..i] == cuts[..i];
        total := total + cuts[i].weight;
        i := i + 1;
      }
      assert cuts[..i] == cuts;
      this.name := name;
      this.cuts := cuts;
      this.firstCut := cuts[0].pos;
      this.lastCut := cuts[|cuts| - 1].pos;
      this.sequenceLength := sequenceLength;
      this.totalWeight := total;
      this.threshold := 0.0;
    }

    /** The scan loop shared by both `run` overloads, with the density function chosen by `v`. */
    method Scan(v: Variant, s: Settings, dw: DensityWriter) returns (r: Result<nat, DensityError>)
      requires s.bandwidth != 0
      modifies dw
      ensures var p := Profile(v, s, cuts, sequenceLength, firstCut, Abs(lastCut - firstCut));
              r == ScanOutcome(p, threshold) && dw.log == old(dw.log) + ScanLog(p)
    {
      var density := new real[BATCH_SIZE];
      var numBases := Abs(lastCut - firstCut);
      var peaks: nat := 0;
      var aboveThreshold := false;
      var cutIdx: nat := 0;
      ghost var vals: seq<real> := [];
      var i: nat := 0;
      ghost var fill: nat := 0;  // i % BATCH_SIZE, the number of values waiting in the buffer
      ghost var flushed: seq<WriterCall> := [];
      while i < numBases
        invariant ScanInv(v, s, cuts, sequenceLength, firstCut, threshold, numBases,
                          i, vals, cutIdx, aboveThreshold, peaks, fill, density[..], flushed)
        invariant dw.log == old(dw.log) + flushed
      {
        var chromPos := firstCut + i;
        var arrPos := i % BATCH_SIZE;
        ghost var before := density[..];
        ghost var i0, vals0, cutIdx0, above0, peaks0, fill0, flushed0 := i, vals, cutIdx, aboveThreshold, peaks, fill, flushed;
        var x;
        x, cutIdx, aboveThreshold, peaks, flushed :=
          ScanBase(v, s, cuts, sequenceLength, threshold, chromPos, arrPos, cutIdx, aboveThreshold, peaks, density, dw, old(dw.log), flushed);
        BaseValueAt(v, s, cuts, sequenceLength, firstCut, i, chromPos, cutIdx0);
        if x.Err? {
          ScanInvFails(v, s, cuts, sequenceLength, firstCut, threshold, numBases,
                       i, vals, cutIdx0, above0, peaks0, fill, before, flushed0, x.error);
          return Err(x.error);
        }
        vals := vals + [x.value];
        i := i + 1;
        fill := if arrPos == BATCH_SIZE - 1 then 0 else arrPos + 1;
        ScanInvStep(v, s, cuts, sequenceLength, firstCut, threshold, numBases,
                    i0, vals0, cutIdx0, above0, peaks0, fill0, before, flushed0, x.value,
                    cutIdx, aboveThreshold, peaks, fill, density[..], flushed);
      }
      ScanInvEnds(v, s, cuts, sequenceLength, firstCut, threshold, numBases,
                  vals, cutIdx, aboveThreshold, peaks, fill, density[..], flushed);
      ghost var last := DensityWritten(fill, density[..][0..fill]);
      dw.WriteDensity(density, 0, numBases % BATCH_SIZE);
      LogAppend(old(dw.log), flushed, last);
      r := Ok(peaks);
    }

    /** The plain `run`: sets the threshold, then scans with the uncorrected density. */
    method Run(s: Settings, dw: DensityWriter, wgThreshold: real) returns (r: Result<nat, DensityError>)
      requires s.bandwidth != 0
      modifies this, dw
      ensures threshold == wgThreshold
      ensures var p := Profile(Plain, s, cuts, sequenceLength, firstCut, Abs(lastCut - firstCut));
              r == ScanOutcome(p, wgThreshold) && dw.log == old(dw.log) + [ThresholdSet(wgThreshold)] + ScanLog(p)
    {
      threshold := wgThreshold;
      dw.SetThreshold(threshold);
      r := Scan(Plain, s, dw);
    }

    /**
     * The corrected `run` with background and input file lists: sets the threshold; a non-empty
     * list without a file named after the chromosome ends the run there; otherwise the last matching
     * tracks choose the density function and the scan runs.
     */
    method RunCorrected(s: Settings, dw: DensityWriter, wgThreshold: real, bgFiles: seq<TrackFile>, ipFiles: seq<TrackFile>)
      returns (r: RunOutcome)
      requires s.bandwidth != 0
      modifies this, dw
      ensures threshold == wgThreshold
      ensures var bg, ip := LastMatch(bgFiles, name + ".bff"), LastMatch(ipFiles, name + ".iff");
              if (|bgFiles| > 0 && bg.None?) || (|ipFiles| > 0 && ip.None?) then
                r == NoTrack && dw.log == old(dw.log) + [ThresholdSet(wgThreshold)]
              else
                var p := Profile(Select(bg, ip), s, cuts, sequenceLength, firstCut, Abs(lastCut - firstCut));
                r == Scanned(ScanOutcome(p, wgThreshold)) && dw.log == old(dw.log) + [ThresholdSet(wgThreshold)] + ScanLog(p)
    {
      threshold := wgThreshold;
      dw.SetThreshold(threshold);
      var bgHit: Option<Track> := None;
      var ipHit: Option<Track> := None;
      if |bgFiles| > 0 {
        bgHit := FindTrack(bgFiles, name + ".bff");
        if bgHit.None? {
          return NoTrack;
        }
      }
      if |ipFiles| > 0 {
        ipHit := FindTrack(ipFiles, name + ".iff");
        if ipHit.None? {
          return NoTrack;
        }
      }
      var res := Scan(Select(bgHit, ipHit), s, dw);
      r := Scanned(res);
    }
  }
}
